=== FILE: README.md ===
# Credential and verification-token lifecycle of the management backend

This project is a Dafny model of the authentication core of a Hono/Prisma
back end. It covers:

- signup with its two-stage role check;
- login, including the unverified branch that reuses or mints a
  verification token and mails a link;
- email verification through that link;
- resending the verification mail;
- the forgot-password request;
- the session tokens these handlers sign;
- the `checkVerification` middleware that reads those tokens back;
- the mail service, with its retry loop and error classification.

Each handler is a pure function from the store, the request and the values
the environment supplies to the HTTP outcome, the store afterwards and the
mail handed to the transport (`AuthController.Step`). The environment
supplies the clock, `JWT_SECRET`, the base URL, random bytes, the password
check and the transport's answers.

Modules:

- `Base`: `Option`, `Result` and `Outcome`.
- `Js`: the JavaScript semantics the handlers rely on. These are
  truthiness, `split`, `trim` and `toUpperCase`.
- `Codec`: the hex rendering of random bytes, `String(n)`, `Number(s)` and
  `encodeURIComponent`.
- `Jwt`: signed claims with issue and expiry times, abstractly.
- `Store`: the Prisma tables as immutable sequences and maps, plus
  `Wellformed`, the schema's unique and foreign-key constraints.
- `AuthService`, `AuthUtils`, `EmailService` and `AuthController`: one
  module per source file.
- `Lifecycle`: properties that span several requests.
- `Invariants`: what every handler preserves.
- `Scenarios`: concrete runs.
- `Findings`: two defects in src/utils/auth.ts, the verification gate
  and `verifyUserToken`, each next to its corrected definition.

Modelling choices:

- **Token strings.** A compact JWT string is modelled by the map
  `issued: string -> Jwt.Token` of strings the server's signer produced.
  Any other string fails verification.
- **Transport.** The mail transport is a sequence of attempt outcomes
  (`Delivered | Failed(thrown)`).
- **Clock.** Times are integer milliseconds. JWT `iat`/`exp` are whole
  seconds, as `jsonwebtoken` computes them.

## Model

| member | source | states |
|---|---|---|
| Js.Split | src/utils/auth.ts:83 | `split(' ')` yields at least one field, no field contains the separator, and joining the fields with it gives the input back |
| Js.SplitJoin | src/utils/auth.ts:83 | splitting the join of separator-free fields gives exactly those fields (the other direction of the round trip) |
| Js.Trim | src/controllers/auth/auth_controller.ts:345 | `trim()` removes exactly the leading and trailing white space: the result is the middle slice, everything cut is white space, and the result neither starts nor ends with white space |
| Js.TrimUntouched | src/controllers/auth/auth_controller.ts:345 | a string without surrounding white space is its own trim |
| Js.ToUpperCaseAscii | src/controllers/auth/auth_controller.ts:21 | on ASCII input `toUpperCase` keeps the length and upper-cases each letter in place |
| Js.ToUpperCaseFixed | src/controllers/auth/auth_controller.ts:21 | ASCII text without lower-case letters is its own upper case |
| Codec.HexEncode | src/controllers/auth/auth_controller.ts:494 | `toString("hex")` gives two lower-case hex digits per byte |
| Codec.HexRoundTrip | src/services/auth.service.ts:9 | decoding the hex rendering of any bytes gives back those bytes |
| Codec.HexDecodeEncode | src/services/auth.service.ts:9 | every even-length lower-hex string is the rendering of the bytes it decodes to |
| Codec.DecimalString | src/controllers/auth/auth_controller.ts:313 | `String(n)` for a natural number is a digit string without a leading zero whose decimal value is n |
| Codec.IntString | src/controllers/auth/auth_controller.ts:313 | `String(id)` is non-empty and made of digits with at most a leading minus |
| Codec.LetterIsNaN | src/utils/auth.ts:45 | `Number` of a one-letter string such as `"x"` (any lower-case letter but `e`) is `NaN` |
| Codec.NumberOfIntString | src/controllers/auth/auth_controller.ts:408 | `Number(String(id))` is `id` again, so the link's user id matches its owner |
| Codec.NumeralDecimal | src/controllers/auth/auth_controller.ts:408 | `Number` of a signed digit string is the sign times its decimal value |
| Codec.EncodeURIComponent | src/services/email.service.ts:80 | percent-encoding never shortens its input |
| Codec.EncodeIdentityIff | src/services/email.service.ts:80 | `encodeURIComponent` leaves a string unchanged if and only if every character is unreserved |
| Codec.EncodeHexAndDigits | src/services/email.service.ts:80 | hex tokens pass through `encodeURIComponent` unchanged |
| Jwt.SecretOr | src/utils/auth.ts:6 | `process.env.JWT_SECRET \|\| fallback` is never empty and is the environment value whenever that is non-empty |
| Jwt.Verify | src/utils/auth.ts:90 | verification succeeds exactly when the secret matches and the expiry is still ahead, and then yields the signed claims |
| Jwt.SignThenVerify | src/utils/auth.ts:17-28 | a signed token verifies under a secret and a time if and only if it is that secret and the time is inside the lifetime, and then yields exactly the signed claims; a wrong secret is reported before expiry |
| Store.RoleOf | src/controllers/auth/auth_controller.ts:44-52 | a string names a role exactly when it is ADMIN, HEAD or STAFF, and the role's name is that string |
| Store.UserByEmail | src/controllers/auth/auth_controller.ts:230-250 | the unique lookup by email finds nothing exactly when no user has that email, and otherwise finds a stored user with that email |
| Store.UserById | src/controllers/auth/auth_controller.ts:401-404 | the lookup by id finds nothing exactly when no user has that id |
| Store.UserByEmailOrUsername | src/controllers/auth/auth_controller.ts:60-68 | `findFirst` with `OR` finds nothing exactly when no user has the email or the username |
| Store.SetUserSame | src/controllers/auth/auth_controller.ts:422-430 | writing back a row unchanged leaves a table with distinct ids as it was |
| Store.SetUserKeepsKeys | src/controllers/auth/auth_controller.ts:358-361 | an update that keeps a user's id, email and username keeps the table's unique keys and its set of ids |
| Store.TokenRecord | src/controllers/auth/auth_controller.ts:401-404 | the lookup by token string finds nothing exactly when no row has that string |
| Store.DeleteToken | src/controllers/auth/auth_controller.ts:432 | deleting by token removes exactly the rows with that string and keeps the rest |
| Store.DeleteUserTokens | src/controllers/auth/auth_controller.ts:489-491 | `deleteMany` by user removes exactly that user's rows |
| Store.UpsertToken | src/services/auth.service.ts:12-16 | the upsert on the token string updates only the expiry of an existing row or creates the row, and no other row changes |
| Store.UniqueRecord | src/services/auth.service.ts:12-16 | in a table with unique token strings, each row is what its string finds |
| Store.CreateToken | src/controllers/auth/auth_controller.ts:497-503 | `create` succeeds exactly when the token string is new and the owner exists, and then appends exactly that row |
| Store.TokensOf | src/controllers/auth/auth_controller.ts:240-247 | the user's tokens are exactly the rows with that user id |
| Store.NewestToken | src/controllers/auth/auth_controller.ts:240-247 | `orderBy createdAt desc, take 1` finds a row of that user with the greatest creation time, or nothing when the user has no rows |
| Store.UpsertReset | src/controllers/auth/auth_controller.ts:537-549 | the reset upsert on the user id sets that user's one row and leaves every other user's row |
| AuthService.GenerateAndStoreToken | src/services/auth.service.ts:8-19 | the token is the 64-digit hex of the random bytes, stored with a 24-hour expiry; only the token table changes; the call fails exactly when the create branch would violate the foreign key |
| AuthService.GenerateJWT | src/services/auth.service.ts:21-32 | signing fails exactly when the secret is unset or empty; the claims are id, email and role, with `isVerified` true exactly for ADMIN; the token lives 7 days with rememberMe and 2 hours without |
| AuthUtils.GenerateToken | src/utils/auth.ts:17-28 | exactly four claims, the verification flag true exactly when the stored flag is true, valid for seven days under this file's secret |
| AuthUtils.GenerateVerificationToken | src/utils/auth.ts:36-52 | the row's owner is `Number(userId)`; the create succeeds exactly when that is an integer, the token string is new and the user exists; the new row expires 24 hours from now; users and resets are untouched |
| AuthUtils.GenerateVerificationTokenIds | src/utils/auth.ts:36-45 | an id given as its decimal string acts as the number, `""` acts as user 0, and a one-letter string such as `"x"` (any lower-case letter but `e`) is refused |
| AuthUtils.SameNumberSameRow | src/utils/auth.ts:45 | the call depends on the id argument only through `Number(userId)` |
| AuthUtils.VerifyUserToken | src/utils/auth.ts:55-78 | as written: an unknown token changes nothing; an expired one is deleted; for a live token the update naming `verified` is refused, so the call throws before the delete and nothing changes |
| AuthUtils.VerifyUserTokenRetry | src/utils/auth.ts:55-78 | no call succeeds or touches the users; after an expiry the same token fails as unknown, and a live token keeps failing the same way on an unchanged store |
| AuthUtils.BearerToken | src/utils/auth.ts:83 | the extracted token contains no space, and a present header yields no token exactly when it has no space, so a single-field header is refused with 401 |
| AuthUtils.BearerTokenOfScheme | src/utils/auth.ts:83 | a `Bearer <t>` header yields `t` |
| AuthUtils.CheckVerification | src/utils/auth.ts:81-109 | 401 without a token; 403 exactly for a valid token whose `isVerified` claim is not truthy; passes exactly for a valid verified token when the handler returns, and then exposes the token's claims |
| EmailService.Compose | src/services/email.service.ts:48-61 | the text defaults to the subject, and the html to the text in a paragraph |
| EmailService.ComposeFixpoint | src/services/email.service.ts:48-61 | a composed message passed back in as options composes to itself, so the defaults apply once |
| EmailService.SendEmail | src/services/email.service.ts:48-61 | the composed mail is handed over once; the call fails exactly when the transport throws, and stripping the `Failed to send email: ` prefix gives back the thrown message |
| EmailService.VerificationBaseTrailingSlash | src/services/email.service.ts:77-78 | exactly one trailing slash is stripped from the base URL, and a missing base URL behaves as the empty one |
| EmailService.VerificationUrlVerbatim | src/services/email.service.ts:80 | for a hex token and a decimal id the link is the plain concatenation |
| EmailService.ResetUrlRaw | src/services/email.service.ts:196 | the reset link keeps a trailing slash of the base URL (so it is one character longer than the verification-style link) and spells a missing base URL as `undefined` |
| EmailService.FirstDelivered | src/services/email.service.ts:140-162 | finds the first delivered attempt among the first n, or establishes that all of them failed |
| EmailService.Retry | src/services/email.service.ts:140-162 | the loop stops at the first delivery or after its last retry, waiting once between consecutive attempts |
| EmailService.SendWithRetries | src/services/email.service.ts:140-162 | delivered exactly when one of the first three attempts is delivered; otherwise three attempts, and the third error is rethrown |
| EmailService.SendLoop | src/services/email.service.ts:140-162 | the literal `while (retries > 0)` loop computes the same delivery as the recursive definition |
| EmailService.Classify | src/services/email.service.ts:173-188 | "Invalid login" maps to the authentication message, else "Message rejected" to the rejection message, else the generic message naming the address |
| EmailService.ContainsIff | src/services/email.service.ts:173-181 | `includes` holds exactly when the substring occurs at some position |
| EmailService.MessagesDistinct | src/services/email.service.ts:173-188 | the three failure messages differ whatever the address |
| EmailService.ClassifyTells | src/services/email.service.ts:173-188 | the message identifies the branch: the authentication message exactly when the `Error` mentions "Invalid login", the rejection message exactly when it mentions "Message rejected" but not that, and the address is named exactly when neither applies |
| EmailService.SendVerificationEmail | src/services/email.service.ts:63-190 | one mail with the fixed subject, the text prefix and the link; success exactly when one of the three attempts is delivered; the failure message classifies the last error |
| EmailService.SendPasswordResetEmail | src/services/email.service.ts:192-216 | one attempt; subject and text are the fixed subject and the html carries the raw reset link; success exactly when the attempt is delivered |
| AuthController.MapUserType | src/controllers/auth/auth_controller.ts:20-26 | accepts exactly the inputs whose upper case is a role name and returns that upper case; otherwise the error names the input |
| AuthController.MapUserTypeAscii | src/controllers/auth/auth_controller.ts:20-26 | on ASCII input, accepts exactly the case-insensitive spellings of the three roles |
| AuthController.RoleNamesUpper | src/controllers/auth/auth_controller.ts:20-26 | the role names are their own upper case, so every exact role name passes `mapUserType` |
| AuthController.Signup | src/controllers/auth/auth_controller.ts:28-111 | each response under exactly its condition (500 for an unmappable role, 400 for a non-exact role, mismatched passwords or a taken email/username); a failed signup changes nothing; a created user gets the request's fields, the next id and the column defaults, and a seven-day token with its id, email, role and flag |
| AuthController.UnverifiedLogin | src/controllers/auth/auth_controller.ts:289-336 | reuses the newest token while it is live and otherwise upserts the hex of fresh bytes for 24 hours; mails the link either way; answers USER_NOT_VERIFIED exactly when an attempt was delivered; only the token table changes |
| AuthController.Login | src/controllers/auth/auth_controller.ts:215-378 | each response under exactly its condition (missing fields, unknown email or wrong password, inactive, unverified, success); only a success touches the users, and only an unverified login touches tokens or mails; a session carries the user's claims and `is_verified`, lives 7 d or 2 h, and sets `last_login` while reporting the previous one |
| AuthController.Confirm | src/controllers/auth/auth_controller.ts:422-447 | the owner ends verified (written only if it was not), exactly that token row is deleted, and a two-hour session with `is_verified: true` is signed |
| AuthController.VerifyEmail | src/controllers/auth/auth_controller.ts:391-469 | 400 without both parameters, 400 invalid unless the token exists and its owner is `Number(userId)`, 400 expired (and the row deleted) strictly after expiry, success otherwise; failures other than expiry change nothing |
| AuthController.Resend | src/controllers/auth/auth_controller.ts:473-520 | 404 for an unknown email, 400 for a verified user, both without changes; otherwise all the user's tokens go before one fresh 24-hour token is created and mailed; 200 exactly when the mail was delivered |
| AuthController.ResentTableRows | src/controllers/auth/auth_controller.ts:489-503 | after a resend other users' rows are exactly as before; the user owns exactly the new row when its string was free, and no row when it was taken |
| AuthController.ForgotPassword | src/controllers/auth/auth_controller.ts:522-557 | 404 for an unknown email; otherwise the signed seven-day token becomes the user's one reset row for an hour and is mailed in one attempt; only the reset table changes |
| Lifecycle.RecordOfRow | src/controllers/auth/auth_controller.ts:401-404 | a stored row is what a lookup by its token finds |
| Lifecycle.UserByIdOfRow | src/controllers/auth/auth_controller.ts:401-404 | a stored user is what a lookup by its id finds |
| Lifecycle.UserByEmailAfterSet | src/controllers/auth/auth_controller.ts:422-430 | after rewriting a user without changing the email, the email lookup finds the new row |
| Lifecycle.IdParameter | src/controllers/auth/auth_controller.ts:393-415 | the link's `userId` parameter is present and reads back as the owner's id |
| Lifecycle.NewestAfterCreate | src/services/auth.service.ts:12-16 | a row created now under a new string is its owner's newest |
| Lifecycle.LinkIsNewest | src/controllers/auth/auth_controller.ts:292-314 | in the token table the unverified branch leaves, the token it mails belongs to the user, is the user's newest row, and is live |
| Lifecycle.LoginReusesLiveToken | src/controllers/auth/auth_controller.ts:292-314 | a second login inside the link's lifetime mails the same link without changing the store; after expiry it mails a new token |
| Lifecycle.UnverifiedLinkVerifies | src/controllers/auth/auth_controller.ts:302-314 | on the token table the unverified branch leaves, following the mailed link at any time up to the row's expiry verifies the user |
| Lifecycle.FollowLink | src/controllers/auth/auth_controller.ts:391-447 | a stored, unexpired token whose owner exists, presented with the owner's decimal id, verifies the owner |
| Lifecycle.LoginLinkVerifies | src/controllers/auth/auth_controller.ts:289-336 | the same for the link a refused login mails |
| Lifecycle.ExpiryInstant | src/controllers/auth/auth_controller.ts:294 | when the newest token expires exactly now, login no longer counts it as live, yet the link still verifies |
| Lifecycle.VerifyTwice | src/controllers/auth/auth_controller.ts:432 | a link that verified once fails as invalid afterwards |
| Lifecycle.ExpiredThenInvalid | src/controllers/auth/auth_controller.ts:417-420 | a link refused as expired fails as invalid on retry |
| Lifecycle.VerifiedUserLogsIn | src/controllers/auth/auth_controller.ts:422-430 | a live link whose owner is the account being logged in verifies it, and afterwards the owner's correct credentials log in |
| Lifecycle.OnlyRow | src/controllers/auth/auth_controller.ts:497-503 | a row appended after rows of other users only is all that user owns |
| Lifecycle.ResendLeavesOneToken | src/controllers/auth/auth_controller.ts:489-503 | for an unverified user whose new token string is not held by another user, the resend creates and mails the token, and the user then owns exactly that row |
| Lifecycle.ForgotTwiceSupersedes | src/controllers/auth/auth_controller.ts:537-549 | a second reset request replaces the first token and keeps every other user's row |
| Invariants.KeepsVerifiedPointwise | src/controllers/auth/auth_controller.ts:422-430 | a position- and id-preserving update that never clears the flag keeps every verified user verified |
| Invariants.SetUserKeepsVerified | src/controllers/auth/auth_controller.ts:358-361 | rewriting one row without clearing its flag keeps every verified user verified |
| Invariants.AppendKeepsUsers | src/controllers/auth/auth_controller.ts:74-85 | appending a user keeps every existing user and every verified flag |
| Invariants.SubTableOwned | src/controllers/auth/auth_controller.ts:489-491 | removing token rows keeps every row's owner existing |
| Invariants.SignupPreserves | src/controllers/auth/auth_controller.ts:28-111 | signup keeps unique ids, emails and usernames and owned tokens, and clears no flag |
| Invariants.LoginPreserves | src/controllers/auth/auth_controller.ts:215-378 | login keeps the store well-formed and clears no flag |
| Invariants.UnverifiedOwned | src/services/auth.service.ts:8-19 | every row of the token table the unverified branch leaves has an existing owner |
| Invariants.VerifyEmailPreserves | src/controllers/auth/auth_controller.ts:391-469 | verification keeps the store well-formed and clears no flag |
| Invariants.ResentTableWellformed | src/controllers/auth/auth_controller.ts:489-503 | replacing an existing user's token rows by the table a resend leaves keeps the store well-formed |
| Invariants.AppendOwned | src/controllers/auth/auth_controller.ts:497-503 | appending a row with a new string and an existing owner keeps the store well-formed |
| Invariants.ResendPreserves | src/controllers/auth/auth_controller.ts:473-520 | resend keeps the store well-formed and the users untouched |
| Invariants.ForgotPreserves | src/controllers/auth/auth_controller.ts:522-557 | forgot-password keeps the store well-formed and the users untouched |
| Scenarios.SignupScenario | src/controllers/auth/auth_controller.ts:74-92 | a fresh STAFF signup creates an unverified user whose token says `isVerified: false` |
| Scenarios.WrongPasswordScenario | src/controllers/auth/auth_controller.ts:282-286 | a wrong password gets 401 and changes nothing |
| Scenarios.InactiveScenario | src/controllers/auth/auth_controller.ts:269-278 | a deactivated account gets 403 whatever the password |
| Scenarios.ExpiredOneSecondAgo | src/controllers/auth/auth_controller.ts:417-420 | a token that expired a second ago fails as expired, then as invalid |
| Scenarios.RoleSpellings | src/controllers/auth/auth_controller.ts:20-52 | "staff" and "ſtaff" pass `mapUserType` but fail the exact check with 400; "guest" makes `mapUserType` throw, which signup reports as 500 |
| Findings.CheckVerificationCorrected | src/utils/auth.ts:81-109 | the gate with the flag read under either spelling: 403 exactly for valid tokens carrying neither flag, passes exactly for valid tokens carrying one |
| Findings.GateOnSnakeCaseFlag | src/utils/auth.ts:91-99 | a valid token flagged only as `is_verified` is refused as unverified as written and admitted by the corrected gate |
| Findings.GateRefusesVerifiedSession | src/controllers/auth/auth_controller.ts:340-355 | a verified user's login session is refused with 403 by the gate as written, whatever the handler does; the corrected gate admits it |
| Findings.GateRefusesConfirmedSession | src/controllers/auth/auth_controller.ts:436-447 | likewise for the session issued on successful verification |
| Findings.VerifyUserTokenCorrected | src/utils/auth.ts:55-78 | with the update writing `is_verified`: an unknown token changes nothing, an expired one is deleted, and a live token of an existing user verifies exactly that user, deletes exactly that token and returns the updated owner |
| Findings.VerifyUserTokenCorrectedOnce | src/utils/auth.ts:65-75 | with the correction, after a success or an expiry the same token fails as unknown |
| Findings.TokenNeverVerifies | src/utils/auth.ts:70-75 | a live token of an unverified user leaves the user unverified and the token stored as written, while the corrected call verifies the user and consumes the token |
| Findings.CorrectedGateRefusesUnverified | src/controllers/auth/auth_controller.ts:87-92 | the corrected gate still refuses an unverified user's signup token, as the original does |

## Left out

- EmailService.Classify: the source tests `error instanceof Error`. This is modelled as a boolean carried with the thrown value.
- Login: the 500 "An error occurred during login" is reached through store exceptions or through a rejection of `argon2.verify`, which happens when the stored digest is not in argon2 format (for example a bcrypt digest, which src/utils/auth.ts handles elsewhere). Neither is modelled: store exceptions are left out and `matches` is a total predicate, so the contract states that the 500 never happens. The one modelled failure, the foreign-key failure of `generateAndStoreToken` for a user who is not in the store, cannot happen for a user who was just found.
- AuthController.ForgotPassword: the compact string `jwt.sign` returns is a parameter (`compact`). The model does not encode JWT strings.
- Jwt: signatures, the header and base64url encoding are abstract. A token is its claims, `iat`, `exp` and the secret, and verifying it compares secrets.
- The fallback secrets differ between files (`your_jwt_secret` in src/utils/auth.ts, `your-secret-key-here` in login and `your-secret-key` in verification). Each is modelled where it is used, and `generateJWT` throws on a missing secret. When `JWT_SECRET` is unset, tokens from one file therefore fail in another.
- AuthUtils.VerifyUserToken: the user table's schema is not part of this model. The model takes it to have no `verified` column, since every other query spells the flag `is_verified`, so the client refuses the update. If the schema did have such a column, the update would succeed and the token would be deleted, but `is_verified` would still stay unset. That variant is not modelled.
- Store.NewestToken: when two of a user's rows share `createdAt`, the model picks the one earlier in the table. The source's `orderBy: { createdAt: 'desc' }, take: 1` leaves that tie to the database, so login may reuse a different row with a different expiry. The login lemmas are stated for the row the model picks.
- The `last_login` update in login is awaited inside the handler's `try`, so it is not best-effort in the code. The model follows the code.
- Codec.ToNumber: the full StringNumericLiteral grammar is modelled with exact integers. The rounding of large values to doubles is not modelled, so ids beyond 2^53 are compared exactly.
- Js.ToUpperCase: covers ASCII plus the non-ASCII characters whose upper case is pure ASCII (for example `ſ` and `ı`). Every other character is left as it is. This can only change which non-role inputs are rejected with which message.
- Prisma engine errors, JSON body parsing, non-string body fields and the 500 responses they lead to are not modelled.
- The SMTP transport is not modelled: connection checks, logging, the 2-second delay (counted as waits, not timed), HTML styling beyond the link, and the `dsn`, priority and header options. Every failed attempt carries an `Error` with a message. A thrown `null` or `undefined` would make `(error as any).message` raise a `TypeError` inside the catch, which ends sending after one attempt instead of three. That case is not modelled.
- `argon2.hash` and `argon2.verify` are parameters: the stored digest and a `matches` predicate.
- `crypto.randomBytes` and `Math.random` are parameters: the drawn bytes or string.
- logoutController, the department controller, routing, the generic middleware and `src/utils/jwt.ts` are outside this model. `authService.verifyToken` is an empty stub in the source and is not modelled.
- Concurrency between requests is not modelled: each handler runs atomically against one store.

## Findings

| source | as written | input that shows it | evidently intended | confidence | as-written member | corrected member |
|---|---|---|---|---|---|---|
| src/utils/auth.ts:91-99 (against src/controllers/auth/auth_controller.ts:340-355 and 436-447) | `checkVerification` admits a token only when its `isVerified` claim is truthy. The sessions that login and email verification sign carry the flag as `is_verified` and have no `isVerified` claim. | A verified, active user logs in with `JWT_SECRET` set and sends the returned session as `Authorization: Bearer <token>` within two hours. | The gate admits sessions of verified users and refuses those of unverified ones. | not executed | Findings.GateRefusesVerifiedSession | Findings.CheckVerificationCorrected |
| src/utils/auth.ts:70-73 (against src/controllers/auth/auth_controller.ts:422-425) | `verifyUserToken` updates the token's owner with `data: { verified: true }`, while the flag is `is_verified` in every other query. The client refuses the unknown field, so the call throws before the token is deleted. | A user who is not verified holds a stored token that has not expired, and `verifyUserToken` is called with it. | The owner is marked verified through `is_verified` and the token is deleted. | not executed | Findings.TokenNeverVerifies | Findings.VerifyUserTokenCorrected |

=== FILE: auth_controller.dfy ===
/** The request handlers of src/controllers/auth/auth_controller.ts as
    step functions: each takes the store, the request and the values the
    environment supplies (clock, configuration, random bytes, password
    check, transport outcomes) and returns the HTTP outcome, the new store
    and the mail handed to the transport, if any. */
module AuthController {
  import opened Base
  import opened Js
  import opened Store
  import Codec
  import Jwt
  import AuthService
  import AuthUtils
  import opened EmailService

  /** Clock (ms), `process.env.JWT_SECRET` and `config.app.baseUrl`. */
  datatype Env = Env(now: int, jwtSecret: Option<string>, baseUrl: Option<string>)

  /** A handler's result: response, store afterwards, mail sent (if any). */
  datatype Step<R> = Step(response: R, db: Db, mail: Option<Mail>)

  // ---------------------------------------------------------------------
  // mapUserType and signup

  predicate IsRoleName(s: string) {
    s == "ADMIN" || s == "HEAD" || s == "STAFF"
  }

  /** `mapUserType(input)`: the upper-cased input when it names a role,
      otherwise a thrown error. */
  function MapUserType(input: string): (r: Result<string>)
    ensures r.Ok? <==> IsRoleName(ToUpperCase(input))
    ensures r.Ok? ==> r.value == ToUpperCase(input) && RoleOf(r.value).Some?
    ensures r.Err? ==> r.message == "Invalid userType: " + input
  {
    var upper := ToUpperCase(input);
    if IsRoleName(upper) then Ok(upper) else Err("Invalid userType: " + input)
  }

  /** Equality up to the case of ASCII letters. */
  predicate EqualsIgnoringCase(a: string, b: string) {
    |a| == |b| && forall i :: 0 <= i < |a| ==> AsciiUpper(a[i]) == AsciiUpper(b[i])
  }

  /** For ASCII input, `mapUserType` accepts exactly the case-insensitive
      spellings of the three roles. */
  lemma MapUserTypeAscii(input: string)
    requires forall i :: 0 <= i < |input| ==> input[i] as int < 0x80
    ensures MapUserType(input).Ok? <==>
      EqualsIgnoringCase(input, "ADMIN") || EqualsIgnoringCase(input, "HEAD") || EqualsIgnoringCase(input, "STAFF")
  {
    ToUpperCaseAscii(input);
    var u := ToUpperCase(input);
    forall w | w == "ADMIN" || w == "HEAD" || w == "STAFF" ensures u == w <==> EqualsIgnoringCase(input, w) {
      assert forall i :: 0 <= i < |w| ==> AsciiUpper(w[i]) == w[i];
      if EqualsIgnoringCase(input, w) {
        assert forall i :: 0 <= i < |w| ==> u[i] == w[i];
      }
    }
  }

  /** The role names are their own upper case. */
  lemma RoleNamesUpper()
    ensures ToUpperCase("ADMIN") == "ADMIN" && ToUpperCase("HEAD") == "HEAD" && ToUpperCase("STAFF") == "STAFF"
  {
    forall w | w in ["ADMIN", "HEAD", "STAFF"] ensures ToUpperCase(w) == w {
      assert forall i :: 0 <= i < |w| ==> 'A' <= w[i] <= 'Z';
      ToUpperCaseFixed(w);
    }
  }

  datatype SignupRequest = SignupRequest(
    firstName: Option<string>,
    lastName: Option<string>,
    email: string,
    password: string,
    confirmPassword: string,
    userType: string,
    phoneNumber: Option<string>,
    username: string,
    department: Option<string>)

  datatype SignupResponse =
    | Created(user: User, token: Jwt.Token)   // 201
    | InvalidUserType(received: string)       // 400 "Invalid user type"
    | PasswordsDoNotMatch                     // 400 "Passwords do not match"
    | AlreadyInUse                            // 400 "Email or Username already in use"
    | ServerError                             // 500 "Server error"
  {
    function Status(): int {
      match this
      case Created(_, _) => 201
      case ServerError => 500
      case _ => 400
    }
  }

  /** The row `prisma.user.create` inserts for an accepted signup. */
  function NewUser(db: Db, req: SignupRequest, role: Role, hash: string): User {
    User(db.nextUserId, req.email, req.username, hash, req.firstName, req.lastName, req.phoneNumber,
         role, req.department, db.defaults.isActive, db.defaults.isVerified, None)
  }

  /** `signupController` with `hash` the digest `argon2.hash(password)`
      produced. The role is first upper-cased and checked (a failure is
      the generic 500), then the raw value must already be an exact role
      name; then the password confirmation and the email-or-username
      collision are checked. Only a signup passing all four creates a user,
      and it gets a seven-day token at once. */
  function Signup(db: Db, req: SignupRequest, hash: string, env: Env): (r: Step<SignupResponse>)
    ensures r.mail.None?
    ensures r.response == ServerError <==> !IsRoleName(ToUpperCase(req.userType))
    ensures r.response.InvalidUserType? <==> IsRoleName(ToUpperCase(req.userType)) && !IsRoleName(req.userType)
    ensures r.response == PasswordsDoNotMatch <==> IsRoleName(req.userType) && req.password != req.confirmPassword
    ensures r.response == AlreadyInUse <==> (IsRoleName(req.userType) && req.password == req.confirmPassword
      && !(forall i :: 0 <= i < |db.users| ==> db.users[i].email != req.email && db.users[i].username != req.username))
    ensures !r.response.Created? ==> r.db == db
    ensures r.response.Created? ==> Registered(db, r.db, req, hash, r.response.user)
    ensures r.response.Created? ==> SignupToken(r.response.user, r.response.token, env)
  {
    RoleNamesUpper();
    match MapUserType(req.userType)
    case Err(_) => Step(ServerError, db, None)
    case Ok(_) =>
      match RoleOf(req.userType)
      case None => Step(InvalidUserType(req.userType), db, None)
      case Some(role) =>
        if req.password != req.confirmPassword then Step(PasswordsDoNotMatch, db, None)
        else if UserByEmailOrUsername(db.users, req.email, req.username).Some? then Step(AlreadyInUse, db, None)
        else
          var u := NewUser(db, req, role, hash);
          var token := AuthUtils.GenerateToken(
            AuthUtils.Payload(u.id, u.email, u.userType, u.isVerified), env.jwtSecret, env.now);
          Step(Created(u, token), db.(users := db.users + [u], nextUserId := db.nextUserId + 1), None)
  }

  /** `db'` is `db` with exactly one new user appended: the next id, the
      request's fields, the stored digest, the column defaults, not yet
      logged in. */
  ghost predicate Registered(db: Db, db': Db, req: SignupRequest, hash: string, u: User) {
    && db'.users == db.users + [u]
    && db'.tokens == db.tokens && db'.resets == db.resets && db'.defaults == db.defaults
    && db'.nextUserId == db.nextUserId + 1
    && u.id == db.nextUserId
    && u.email == req.email && u.username == req.username && u.passwordHash == hash
    && RoleName(u.userType) == req.userType
    && u.firstName == req.firstName && u.lastName == req.lastName
    && u.phoneNumber == req.phoneNumber && u.department == req.department
    && u.isActive == db.defaults.isActive && u.isVerified == db.defaults.isVerified
    && u.lastLogin.None?
  }

  /** The signup token carries the new user's id, email and role, and a
      verification flag that is true only when the stored flag is. */
  ghost predicate SignupToken(u: User, t: Jwt.Token, env: Env) {
    && t.claims.Keys == {"id", "email", "userType", "isVerified"}
    && t.claims["id"] == JNum(u.id) && t.claims["email"] == JStr(u.email)
    && t.claims["userType"] == JStr(RoleName(u.userType))
    && t.claims["isVerified"] == JBool(Verified(u))
    && t.exp - t.iat == Jwt.SevenDays
    && t.secret == AuthUtils.Secret(env.jwtSecret)
  }

  // ---------------------------------------------------------------------
  // login

  datatype LoginRequest = LoginRequest(email: Option<string>, password: Option<string>, rememberMe: Option<Json>)

  datatype LoginResponse =
    | MissingCredentials                                      // 400 "Email and password are required"
    | InvalidCredentials                                      // 401 "Invalid credentials"
    | Deactivated                                             // 403 "Account is deactivated. ..."
    | NotVerified(email: string)                              // 403 USER_NOT_VERIFIED
    | EmailSendFailed                                         // 403 EMAIL_SEND_FAILED
    | LoggedIn(token: Jwt.Token, user: User, lastLogin: Option<int>)  // 200 "Login successful"
    | LoginError                                              // 500 "An error occurred during login"
  {
    function Status(): int {
      match this
      case MissingCredentials => 400
      case InvalidCredentials => 401
      case Deactivated | NotVerified(_) | EmailSendFailed => 403
      case LoggedIn(_, _, _) => 200
      case LoginError => 500
    }
  }

  /** The signing secret of the login handler. */
  function LoginSecret(env: Env): string {
    Jwt.SecretOr(env.jwtSecret, "your-secret-key-here")
  }

  /** A nullable string column as a claim value. */
  function NullableString(x: Option<string>): Json {
    if x.Some? then JStr(x.value) else JNull
  }

  /** A nullable boolean column as a claim value. */
  function NullableBool(x: Option<bool>): Json {
    if x.Some? then JBool(x.value) else JNull
  }

  /** `` `${first_name || ""} ${last_name || ""}`.trim() ``. */
  function DisplayName(u: User): string {
    Trim(OrEmpty(u.firstName) + " " + OrEmpty(u.lastName))
  }

  /** The claims of a login session: `{ userId: user.id, ...userData }`. */
  function SessionClaims(u: User): Jwt.Claims {
    map["userId" := JNum(u.id), "id" := JNum(u.id), "email" := JStr(u.email),
        "username" := JStr(u.username), "user_type" := JStr(RoleName(u.userType)),
        "name" := JStr(DisplayName(u)), "department" := NullableString(u.department),
        "is_verified" := NullableBool(u.isVerified)]
  }

  /** Session lifetime: seven days when `rememberMe` is truthy, else two
      hours. */
  function SessionTtl(rememberMe: Option<Json>): nat {
    if Present(rememberMe) then Jwt.SevenDays else Jwt.TwoHours
  }

  /** The user's newest verification token, when it is still live: its
      expiry lies strictly after `now`. */
  function LiveToken(db: Db, u: User, now: int): Option<VerificationToken> {
    var newest := NewestToken(db.tokens, u.id);
    if newest.Some? && newest.value.expires > now then newest else None
  }

  /** The token the verification link of an unverified login carries: the
      live one, or the hex rendering of fresh random bytes. */
  function LinkToken(db: Db, u: User, random: seq<Codec.Byte>, now: int): string {
    var live := LiveToken(db, u, now);
    if live.Some? then live.value.token else Codec.HexEncode(random)
  }

  /** The token table the unverified branch of a login leaves: as it was
      while the newest token is live, otherwise with the hex of `random`
      upserted for 24 hours. */
  function LinkTable(db: Db, u: User, random: seq<Codec.Byte>, now: int): seq<VerificationToken>
    requires DistinctTokens(db.tokens)
  {
    if LiveToken(db, u, now).Some? then db.tokens
    else UpsertToken(db.tokens, Codec.HexEncode(random), u.id, now + VerificationTtl, now)
  }

  /** Mail the verification link for `token` to `u` and answer 403 either
      way, with a code telling whether the mail went out. */
  function SendLink(db: Db, u: User, token: string, outcomes: seq<Attempt>, env: Env): (r: Step<LoginResponse>)
    requires |outcomes| >= MaxAttempts
  {
    var (mail, out) := SendVerificationEmail(u.email, token, Codec.IntString(u.id), env.baseUrl, outcomes);
    Step(if out.Pass? then NotVerified(u.email) else EmailSendFailed, db, Some(mail))
  }

  /** Step 5 of the login chain: reuse the newest token while it is live,
      otherwise mint and store a new one, then mail the link. */
  function UnverifiedLogin(db: Db, u: User, random: seq<Codec.Byte>, outcomes: seq<Attempt>, env: Env)
    : (r: Step<LoginResponse>)
    requires |random| == 32 && |outcomes| >= MaxAttempts && DistinctTokens(db.tokens)
    requires u in db.users
    ensures r.response.NotVerified? || r.response == EmailSendFailed
    ensures r.response.NotVerified? <==> exists j :: 0 <= j < MaxAttempts && outcomes[j].Delivered?
    ensures r.response.NotVerified? ==> r.response.email == u.email
    ensures r.db == db.(tokens := LinkTable(db, u, random, env.now)) && DistinctTokens(r.db.tokens)
    ensures r.mail == Some(VerificationMail(u.email,
      VerificationUrl(env.baseUrl, LinkToken(db, u, random, env.now), Codec.IntString(u.id))))
    ensures LiveToken(db, u, env.now).Some? ==> r.db == db
  {
    assert HasUser(db.users, u.id) by { var i :| 0 <= i < |db.users| && db.users[i] == u; }
    var live := LiveToken(db, u, env.now);
    if live.Some? then SendLink(db, u, live.value.token, outcomes, env)
    else match AuthService.GenerateAndStoreToken(db, u.id, random, env.now)
      case Err(_) => Step(LoginError, db, None)
      case Ok(m) => SendLink(m.db, u, m.token, outcomes, env)
  }

  /** `loginController`. `matches(hash, password)` is `argon2.verify`,
      `random` the bytes a fresh verification token would be made of, and
      `outcomes` the transport's answers to the verification mail. */
  function Login(db: Db, req: LoginRequest, matches: (string, string) -> bool, random: seq<Codec.Byte>,
                 outcomes: seq<Attempt>, env: Env): (r: Step<LoginResponse>)
    requires |random| == 32 && |outcomes| >= MaxAttempts && DistinctTokens(db.tokens)
    ensures r.response == MissingCredentials <==> !Filled(req.email) || !Filled(req.password)
    ensures r.response == InvalidCredentials <==> (Filled(req.email) && Filled(req.password)
      && (UserByEmail(db.users, req.email.value).None?
          || (UserByEmail(db.users, req.email.value).value.isActive
              && !matches(UserByEmail(db.users, req.email.value).value.passwordHash, req.password.value))))
    ensures r.response == Deactivated <==> (Filled(req.email) && Filled(req.password)
      && UserByEmail(db.users, req.email.value).Some? && !UserByEmail(db.users, req.email.value).value.isActive)
    ensures r.response.LoggedIn? <==> (Filled(req.email) && Filled(req.password) && Admitted(db, req, matches)
      && Verified(UserByEmail(db.users, req.email.value).value))
    ensures (r.response.NotVerified? || r.response == EmailSendFailed)
      <==> (Filled(req.email) && Filled(req.password) && Admitted(db, req, matches)
      && !Verified(UserByEmail(db.users, req.email.value).value))
    ensures r.response != LoginError
    ensures !r.response.LoggedIn? ==> r.db.users == db.users
    ensures !(r.response.NotVerified? || r.response == EmailSendFailed) ==> r.db.tokens == db.tokens && r.mail.None?
    ensures r.db.resets == db.resets && r.db.nextUserId == db.nextUserId && r.db.defaults == db.defaults
    ensures r.response.LoggedIn? ==> Session(db, r, req, env)
  {
    if !Filled(req.email) || !Filled(req.password) then Step(MissingCredentials, db, None)
    else match UserByEmail(db.users, req.email.value)
      case None => Step(InvalidCredentials, db, None)
      case Some(u) =>
        if !u.isActive then Step(Deactivated, db, None)
        else if !matches(u.passwordHash, req.password.value) then Step(InvalidCredentials, db, None)
        else if !Verified(u) then UnverifiedLogin(db, u, random, outcomes, env)
        else
          var token := Jwt.Sign(SessionClaims(u), SessionTtl(req.rememberMe), LoginSecret(env), env.now);
          var u' := u.(lastLogin := Some(env.now));
          Step(LoggedIn(token, u, u.lastLogin), db.(users := SetUser(db.users, u')), None)
  }

  /** An active account whose password matches. */
  ghost predicate Admitted(db: Db, req: LoginRequest, matches: (string, string) -> bool)
    requires Filled(req.email) && Filled(req.password)
  {
    var u := UserByEmail(db.users, req.email.value);
    u.Some? && u.value.isActive && matches(u.value.passwordHash, req.password.value)
  }

  /** A successful login: the session carries the user's identity and the
      `is_verified` column, lives 7 d or 2 h by `rememberMe`, is signed with
      the login secret, and `last_login` of that user alone becomes `now`;
      the response reports the previous `last_login`. */
  ghost predicate Session(db: Db, r: Step<LoginResponse>, req: LoginRequest, env: Env)
    requires r.response.LoggedIn?
  {
    var u := r.response.user;
    var t := r.response.token;
    && Filled(req.email) && UserByEmail(db.users, req.email.value) == Some(u)
    && t.claims == SessionClaims(u)
    && t.claims["is_verified"] == JBool(true)
    && t.secret == LoginSecret(env)
    && (forall later :: Jwt.Verify(t, LoginSecret(env), later).Ok?
          <==> Jwt.Seconds(later) < Jwt.Seconds(env.now) + SessionTtl(req.rememberMe))
    && r.response.lastLogin == u.lastLogin
    && r.db.users == SetUser(db.users, u.(lastLogin := Some(env.now)))
    && r.db.tokens == db.tokens
  }

  // ---------------------------------------------------------------------
  // verifyEmailController

  datatype VerifyResponse =
    | MissingParams                            // 400 "Token and userId are required"
    | InvalidVerificationToken                 // 400 "Invalid verification token"
    | VerificationExpired                      // 400 "Verification token expired"
    | EmailVerified(token: Jwt.Token, user: User)  // 200 "Email verified successfully"
    | VerificationError                        // 500 "Email verification failed"
  {
    function Status(): int {
      match this
      case EmailVerified(_, _) => 200
      case VerificationError => 500
      case _ => 400
    }
  }

  /** The signing secret of the verification handler. */
  function VerifySecret(env: Env): string {
    Jwt.SecretOr(env.jwtSecret, "your-secret-key")
  }

  /** The claims of the session issued on verification, read from the
      owner as loaded with the token, with `is_verified` fixed to true. */
  function VerifiedClaims(u: User): Jwt.Claims {
    map["userId" := JNum(u.id), "email" := JStr(u.email), "username" := JStr(u.username),
        "user_type" := JStr(RoleName(u.userType)), "name" := JStr(DisplayName(u)),
        "department" := NullableString(u.department), "is_verified" := JBool(true)]
  }

  /** The token row named by the request, when it exists and its owner is
      the id `Number(userId)` yields. */
  function Matching(db: Db, token: string, userId: string): Option<VerificationToken> {
    var rec := TokenRecord(db.tokens, token);
    if rec.Some? && Codec.ToNumber(userId) == Codec.Integer(rec.value.userId) then rec else None
  }

  /** The verified branch of `verifyEmailController`: `u` is the owner of
      `rec` as loaded with it. The flag is written only when it was not
      already set, the row is deleted, and the session is signed. */
  function Confirm(db: Db, rec: VerificationToken, u: User, env: Env): (r: Step<VerifyResponse>)
    requires UserById(db.users, rec.userId) == Some(u)
    ensures r.response.EmailVerified? && r.response.user == u && r.mail.None?
    ensures !Verified(u) ==> r.db.users == SetUser(db.users, u.(isVerified := Some(true)))
    ensures Verified(u) ==> r.db.users == db.users
    ensures DistinctUsers(db.users) ==> r.db.users == SetUser(db.users, u.(isVerified := Some(true)))
    ensures r.db == db.(users := r.db.users, tokens := DeleteToken(db.tokens, rec.token))
    ensures r.response.token.claims == VerifiedClaims(u) && r.response.token.claims["is_verified"] == JBool(true)
    ensures forall later :: (Jwt.Verify(r.response.token, VerifySecret(env), later).Ok?
      <==> Jwt.Seconds(later) < Jwt.Seconds(env.now) + Jwt.TwoHours)
  {
    var users := if !Verified(u) then SetUser(db.users, u.(isVerified := Some(true))) else db.users;
    assert Verified(u) && DistinctUsers(db.users) ==> users == SetUser(db.users, u.(isVerified := Some(true))) by {
      if Verified(u) && DistinctUsers(db.users) {
        assert u.(isVerified := Some(true)) == u;
        SetUserSame(db.users, u);
      }
    }
    var session := Jwt.Sign(VerifiedClaims(u), Jwt.TwoHours, VerifySecret(env), env.now);
    Step(EmailVerified(session, u), db.(users := users, tokens := DeleteToken(db.tokens, rec.token)), None)
  }

  /** `verifyEmailController` with query parameters `token` and `userId`. */
  function VerifyEmail(db: Db, token: Option<string>, userId: Option<string>, env: Env): (r: Step<VerifyResponse>)
    ensures r.mail.None?
    ensures r.response == MissingParams <==> !Filled(token) || !Filled(userId)
    ensures r.response == InvalidVerificationToken <==>
      (Filled(token) && Filled(userId) && Matching(db, token.value, userId.value).None?)
    ensures r.response == MissingParams || r.response == InvalidVerificationToken || r.response == VerificationError
      ==> r.db == db
    ensures r.response == VerificationExpired <==> (Filled(token) && Filled(userId)
      && Matching(db, token.value, userId.value).Some? && Matching(db, token.value, userId.value).value.expires < env.now)
    ensures r.response == VerificationExpired ==> r.db == db.(tokens := DeleteToken(db.tokens, token.value))
    ensures r.response.EmailVerified? <==> (Filled(token) && Filled(userId)
      && Matching(db, token.value, userId.value).Some? && env.now <= Matching(db, token.value, userId.value).value.expires
      && HasUser(db.users, Matching(db, token.value, userId.value).value.userId))
    ensures r.response.EmailVerified? ==> Confirmed(db, r, token.value, env)
  {
    if !Filled(token) || !Filled(userId) then Step(MissingParams, db, None)
    else match Matching(db, token.value, userId.value)
      case None => Step(InvalidVerificationToken, db, None)
      case Some(rec) =>
        if rec.expires < env.now then
          Step(VerificationExpired, db.(tokens := DeleteToken(db.tokens, token.value)), None)
        else match UserById(db.users, rec.userId)
          case None => Step(VerificationError, db, None)
          case Some(u) => Confirm(db, rec, u, env)
  }

  /** A successful verification: `user` is the owner of the named row as
      loaded with it; the owner ends verified and no other user changes (a
      user already verified is not written at all); the token row is gone
      and no other; and a two-hour session with `is_verified: true` is
      issued. */
  ghost predicate Confirmed(db: Db, r: Step<VerifyResponse>, token: string, env: Env)
    requires r.response.EmailVerified?
  {
    var u := r.response.user;
    var t := r.response.token;
    && TokenRecord(db.tokens, token).Some? && UserById(db.users, TokenRecord(db.tokens, token).value.userId) == Some(u)
    && (!Verified(u) ==> r.db.users == SetUser(db.users, u.(isVerified := Some(true))))
    && (Verified(u) ==> r.db.users == db.users)
    && (DistinctUsers(db.users) ==> r.db.users == SetUser(db.users, u.(isVerified := Some(true))))
    && r.db.tokens == DeleteToken(db.tokens, token)
    && r.db.resets == db.resets && r.db.nextUserId == db.nextUserId && r.db.defaults == db.defaults
    && t.claims == VerifiedClaims(u) && t.secret == VerifySecret(env)
    && t.iat == Jwt.Seconds(env.now) && t.exp == t.iat + Jwt.TwoHours
  }

  // ---------------------------------------------------------------------
  // resendVerification

  datatype ResendResponse =
    | ResendUserNotFound   // 404 "User not found"
    | AlreadyVerified      // 400 "Email already verified"
    | Resent               // 200 "Verification email resent"
    | ResendFailed         // 500 "Failed to resend verification email"
  {
    function Status(): int {
      match this
      case ResendUserNotFound => 404
      case AlreadyVerified => 400
      case Resent => 200
      case ResendFailed => 500
    }
  }

  /** The token table a resend for the unverified user `userId` leaves:
      all of the user's rows deleted, then the row for `t` created unless
      another user's row holds that string. */
  function ResentTable(ts: seq<VerificationToken>, userId: int, t: string, now: int): seq<VerificationToken> {
    var cleared := DeleteUserTokens(ts, userId);
    if TokenRecord(cleared, t).Some? then cleared
    else cleared + [VerificationToken(t, userId, now + VerificationTtl, now)]
  }

  /** Other users' rows survive a resend; the user owns no row when the new
      string was taken, and otherwise exactly the new row. */
  lemma ResentTableRows(ts: seq<VerificationToken>, userId: int, t: string, now: int)
    ensures var r := ResentTable(ts, userId, t, now);
      && (forall x :: x in r && x.userId != userId <==> x in ts && x.userId != userId)
      && (TokenRecord(DeleteUserTokens(ts, userId), t).Some? ==> forall x :: x in r ==> x.userId != userId)
      && (TokenRecord(DeleteUserTokens(ts, userId), t).None? ==>
            forall x :: x in r && x.userId == userId <==> x == VerificationToken(t, userId, now + VerificationTtl, now))
  {
  }

  /** `resendVerification` for `email`: every token of the user is deleted
      before a fresh 24-hour token (the hex of `random`) is created and
      mailed, so a create or send failure still leaves the old tokens gone. */
  function Resend(db: Db, email: string, random: seq<Codec.Byte>, outcomes: seq<Attempt>, env: Env)
    : (r: Step<ResendResponse>)
    requires |random| == 32 && |outcomes| >= MaxAttempts
    ensures r.response == ResendUserNotFound <==> UserByEmail(db.users, email).None?
    ensures r.response == AlreadyVerified <==> UserByEmail(db.users, email).Some? && Verified(UserByEmail(db.users, email).value)
    ensures r.response == ResendUserNotFound || r.response == AlreadyVerified ==> r.db == db && r.mail.None?
    ensures r.response == Resent || r.response == ResendFailed ==> Rotated(db, r, email, random, env)
    ensures r.response == Resent || r.response == ResendFailed ==>
      r.db == db.(tokens := ResentTable(db.tokens, UserByEmail(db.users, email).value.id, Codec.HexEncode(random), env.now))
    ensures r.response == Resent <==> (UserByEmail(db.users, email).Some? && !Verified(UserByEmail(db.users, email).value)
      && r.mail.Some? && exists j :: 0 <= j < MaxAttempts && outcomes[j].Delivered?)
  {
    match UserByEmail(db.users, email)
    case None => Step(ResendUserNotFound, db, None)
    case Some(u) =>
      if Verified(u) then Step(AlreadyVerified, db, None)
      else
        var cleared := db.(tokens := DeleteUserTokens(db.tokens, u.id));
        var t := Codec.HexEncode(random);
        ResentTableRows(db.tokens, u.id, t, env.now);
        assert HasUser(db.users, u.id) by { var i :| 0 <= i < |db.users| && db.users[i] == u; }
        match CreateToken(cleared, t, u.id, env.now + VerificationTtl, env.now)
        case Err(_) => Step(ResendFailed, cleared, None)
        case Ok(db') =>
          var (mail, out) := SendVerificationEmail(u.email, t, Codec.IntString(u.id), env.baseUrl, outcomes);
          Step(if out.Pass? then Resent else ResendFailed, db', Some(mail))
  }

  /** After a resend got past its checks: the user's old tokens are gone and
      nothing else changed; if the new token could be created (its string
      not taken by another user), the user owns exactly that token, expiring
      24 hours from now, and its link was mailed. */
  ghost predicate Rotated(db: Db, r: Step<ResendResponse>, email: string, random: seq<Codec.Byte>, env: Env) {
    var u := UserByEmail(db.users, email);
    var t := Codec.HexEncode(random);
    && u.Some? && !Verified(u.value)
    && r.db.users == db.users && r.db.resets == db.resets && r.db.nextUserId == db.nextUserId
    && r.db.defaults == db.defaults
    && (forall x :: x in r.db.tokens && x.userId != u.value.id <==> x in db.tokens && x.userId != u.value.id)
    && (r.mail.None? <==> TokenRecord(DeleteUserTokens(db.tokens, u.value.id), t).Some?)
    && (r.mail.None? ==> forall x :: x in r.db.tokens ==> x.userId != u.value.id)
    && (r.mail.Some? ==>
          && (forall x :: x in r.db.tokens && x.userId == u.value.id
                <==> x == VerificationToken(t, u.value.id, env.now + VerificationTtl, env.now))
          && r.mail.value == VerificationMail(u.value.email, VerificationUrl(env.baseUrl, t, Codec.IntString(u.value.id))))
  }

  // ---------------------------------------------------------------------
  // forgotPassword

  datatype ForgotResponse =
    | ForgotUserNotFound   // 404 "User not found"
    | ResetSent            // 200 { success: true }
    | ResetFailed          // 500 "Failed to send password reset email"
  {
    function Status(): int {
      match this
      case ForgotUserNotFound => 404
      case ResetSent => 200
      case ResetFailed => 500
    }
  }

  /** The seven-day token `forgotPassword` signs as the reset token. */
  function ResetClaims(u: User, env: Env): Jwt.Token {
    AuthUtils.GenerateToken(AuthUtils.Payload(u.id, u.email, u.userType, u.isVerified), env.jwtSecret, env.now)
  }

  /** `forgotPassword` for `email`. `compact` is the serialisation
      `jwt.sign` applies to a token; the compact form of `ResetClaims` is
      upserted as the user's one reset token, valid one hour, and mailed in
      a single attempt. */
  function ForgotPassword(db: Db, email: string, compact: Jwt.Token -> string, attempt: Attempt, env: Env)
    : (r: Step<ForgotResponse>)
    ensures r.response == ForgotUserNotFound <==> UserByEmail(db.users, email).None?
    ensures r.response == ForgotUserNotFound ==> r.db == db && r.mail.None?
    ensures r.response != ForgotUserNotFound ==>
      var u := UserByEmail(db.users, email).value;
      var signed := compact(ResetClaims(u, env));
      && r.db == db.(resets := r.db.resets)
      && r.db.resets.Keys == db.resets.Keys + {u.id}
      && r.db.resets[u.id] == ResetToken(signed, u.id, env.now + ResetTtl)
      && (forall k :: k in db.resets && k != u.id ==> r.db.resets[k] == db.resets[k])
      && r.mail == Some(Mail(email, ResetSubject, ResetSubject, LinkHtml(ResetUrl(env.baseUrl, signed), "Reset Password")))
    ensures r.response == ResetSent <==> UserByEmail(db.users, email).Some? && attempt.Delivered?
  {
    match UserByEmail(db.users, email)
    case None => Step(ForgotUserNotFound, db, None)
    case Some(u) =>
      var signed := compact(ResetClaims(u, env));
      var resets := UpsertReset(db.resets, u.id, signed, env.now + ResetTtl);
      var (mail, out) := SendPasswordResetEmail(email, signed, env.baseUrl, attempt);
      Step(if out.Pass? then ResetSent else ResetFailed, db.(resets := resets), Some(mail))
  }
}

=== FILE: auth_service.dfy ===
/** `authService` (src/services/auth.service.ts): minting a stored
    verification token and signing a session token. */
module AuthService {
  import opened Base
  import opened Js
  import opened Store
  import Codec
  import Jwt

  /** A freshly stored token string together with the store holding it. */
  datatype Minted = Minted(token: string, db: Db)

  /** `generateAndStoreToken(userId)` at time `now`. `random` is what
      `crypto.randomBytes(32)` returned; its hex rendering is the token,
      upserted on the token value with a 24-hour expiry. The upsert's
      create branch fails its foreign key when the user does not exist. */
  function GenerateAndStoreToken(db: Db, userId: int, random: seq<Codec.Byte>, now: int): (r: Result<Minted>)
    requires |random| == 32
    requires DistinctTokens(db.tokens)
    ensures r.Err? <==> TokenRecord(db.tokens, Codec.HexEncode(random)).None? && !HasUser(db.users, userId)
    ensures r.Ok? ==> var t := r.value.token;
      && |t| == 64
      && (forall i :: 0 <= i < |t| ==> Codec.IsLowerHex(t[i]))
      && Codec.HexDecode(t) == Some(random)
      && r.value.db == db.(tokens := r.value.db.tokens)
      && DistinctTokens(r.value.db.tokens)
      && TokenRecord(r.value.db.tokens, t).Some?
      && TokenRecord(r.value.db.tokens, t).value.expires == now + VerificationTtl
      && TokenRecord(r.value.db.tokens, t).value.userId
         == (if TokenRecord(db.tokens, t).Some? then TokenRecord(db.tokens, t).value.userId else userId)
      && (forall x :: x in r.value.db.tokens && x.token != t <==> x in db.tokens && x.token != t)
  {
    var t := Codec.HexEncode(random);
    Codec.HexRoundTrip(random);
    if TokenRecord(db.tokens, t).None? && !HasUser(db.users, userId) then
      Err("Foreign key constraint failed on the field: `user_id`")
    else
      Ok(Minted(t, db.(tokens := UpsertToken(db.tokens, t, userId, now + VerificationTtl, now))))
  }

  /** `authService.generateJWT(user, rememberMe)` at time `now`, signed with
      `process.env.JWT_SECRET!`; signing throws when that is unset or empty. */
  function GenerateJWT(id: int, email: string, userType: string, rememberMe: bool, env: Option<string>, now: int)
    : (r: Result<Jwt.Token>)
    ensures r.Ok? <==> env.Some? && env.value != ""
    ensures r.Ok? ==> var c := r.value.claims;
      && c.Keys == {"userId", "email", "userType", "isVerified"}
      && c["userId"] == JNum(id) && c["email"] == JStr(email) && c["userType"] == JStr(userType)
      && (c["isVerified"] == JBool(true) <==> userType == "ADMIN")
      && Truthy(c["isVerified"]) == (userType == "ADMIN")
    ensures r.Ok? ==> forall later :: (Jwt.Verify(r.value, env.value, later).Ok?
      <==> Jwt.Seconds(later) < Jwt.Seconds(now) + (if rememberMe then Jwt.SevenDays else Jwt.TwoHours))
  {
    if env.None? || env.value == "" then Err("secretOrPrivateKey must have a value")
    else
      var claims := map["userId" := JNum(id), "email" := JStr(email), "userType" := JStr(userType),
                         "isVerified" := JBool(userType == "ADMIN")];
      Ok(Jwt.Sign(claims, if rememberMe then Jwt.SevenDays else Jwt.TwoHours, env.value, now))
  }
}

=== FILE: auth_utils.dfy ===
/** Helpers of src/utils/auth.ts: the generic session token, the
    stand-alone verification-token lifecycle and the `checkVerification`
    middleware. */
module AuthUtils {
  import opened Base
  import opened Js
  import opened Store
  import Jwt
  import Codec

  /** `JWT_SECRET` of this file: the environment value or its fallback. */
  function Secret(env: Option<string>): string {
    Jwt.SecretOr(env, "your_jwt_secret")
  }

  /** The `UserPayload` handed to `generateToken`. */
  datatype Payload = Payload(id: int, email: string, userType: Role, isVerified: Option<bool>)

  /** `generateToken(user)` at time `now`: exactly four claims, the
      verification flag defaulting to false, always valid for seven days. */
  function GenerateToken(p: Payload, env: Option<string>, now: int): (t: Jwt.Token)
    ensures t.claims.Keys == {"id", "email", "userType", "isVerified"}
    ensures t.claims["id"] == JNum(p.id) && t.claims["email"] == JStr(p.email)
    ensures t.claims["userType"] == JStr(RoleName(p.userType))
    ensures Truthy(t.claims["isVerified"]) <==> p.isVerified == Some(true)
    ensures t.claims["isVerified"].JBool?
    ensures forall later :: (Jwt.Verify(t, Secret(env), later).Ok?
      <==> Jwt.Seconds(later) < Jwt.Seconds(now) + Jwt.SevenDays)
  {
    var claims := map["id" := JNum(p.id), "email" := JStr(p.email),
                       "userType" := JStr(RoleName(p.userType)),
                       "isVerified" := JBool(p.isVerified == Some(true))];
    Jwt.Sign(claims, Jwt.SevenDays, Secret(env), now)
  }

  /** The `userId: string | number` argument of `generateVerificationToken`. */
  datatype UserIdArg = NumberId(n: int) | StringId(s: string)

  /** `Number(userId)`. */
  function NumberOfId(a: UserIdArg): Codec.JsNumber {
    match a
    case NumberId(n) => Codec.Integer(n)
    case StringId(s) => Codec.ToNumber(s)
  }

  /** `generateVerificationToken(userId, email)` at time `now`, `token` being
      the string drawn from `Math.random`. The row's owner is
      `Number(userId)`; a value that is not an integer (`NaN` from `"x"`, or
      a fraction) is refused by the integer `user_id` column. The row is
      created (not upserted), so a taken token string or an unknown user
      makes it throw. */
  function GenerateVerificationToken(db: Db, userId: UserIdArg, token: string, now: int): (r: Result<(string, Db)>)
    ensures r.Ok? <==> (NumberOfId(userId).Integer? && TokenRecord(db.tokens, token).None?
                        && HasUser(db.users, NumberOfId(userId).value))
    ensures r.Err? ==> r.message != ""
    ensures r.Ok? ==> r.value.0 == token
    ensures r.Ok? ==> r.value.1.users == db.users && r.value.1.resets == db.resets
    ensures r.Ok? && DistinctTokens(db.tokens) ==>
      TokenRecord(r.value.1.tokens, token) == Some(VerificationToken(token, NumberOfId(userId).value, now + VerificationTtl, now))
  {
    match NumberOfId(userId)
    case NaN => Err("Invalid value provided for `user_id`: expected Int")
    case NonInteger => Err("Invalid value provided for `user_id`: expected Int")
    case Integer(id) =>
      match CreateToken(db, token, id, now + VerificationTtl, now)
      case Err(m) => Err(m)
      case Ok(db') =>
        assert DistinctTokens(db.tokens) ==> TokenRecord(db'.tokens, token) == Some(db'.tokens[|db.tokens|]) by {
          if DistinctTokens(db.tokens) {
            assert DistinctTokens(db'.tokens);
            UniqueRecord(db'.tokens, |db.tokens|);
          }
        }
        Ok((token, db'))
  }

  /** An id passed as its decimal string behaves exactly as the number
      itself; the empty string stands for user 0; and a string that is no
      number, such as a lower-case letter other than `e`, is refused
      whatever the store holds. */
  lemma GenerateVerificationTokenIds(db: Db, id: int, c: char, token: string, now: int)
    requires Js.IsAsciiLower(c) && c != 'e'
    ensures GenerateVerificationToken(db, StringId(Codec.IntString(id)), token, now)
         == GenerateVerificationToken(db, NumberId(id), token, now)
    ensures GenerateVerificationToken(db, StringId(""), token, now)
         == GenerateVerificationToken(db, NumberId(0), token, now)
    ensures GenerateVerificationToken(db, StringId([c]), token, now).Err?
  {
    assert NumberOfId(StringId(Codec.IntString(id))) == NumberOfId(NumberId(id)) by {
      Codec.NumberOfIntString(id);
    }
    SameNumberSameRow(db, StringId(Codec.IntString(id)), NumberId(id), token, now);
    assert NumberOfId(StringId("")) == NumberOfId(NumberId(0)) by {
      Js.TrimUntouched("");
    }
    SameNumberSameRow(db, StringId(""), NumberId(0), token, now);
    assert NumberOfId(StringId([c])) == Codec.NaN by {
      Codec.LetterIsNaN(c);
    }
  }

  /** The call depends on the id argument only through `Number(userId)`. */
  lemma SameNumberSameRow(db: Db, a: UserIdArg, b: UserIdArg, token: string, now: int)
    requires NumberOfId(a) == NumberOfId(b)
    ensures GenerateVerificationToken(db, a, token, now) == GenerateVerificationToken(db, b, token, now)
  {
  }

  /** Why Prisma refuses the update in `verifyUserToken`: its data names a
      `verified` field, while the user table's verification flag is
      `is_verified`, the name every other query of the flag uses. The
      client validates the arguments before it sends the query. */
  const UnknownVerifiedField: string := "Unknown argument `verified`"

  /** `verifyUserToken(token)` at time `now`, as written: an unknown token
      fails and changes nothing; a token past its expiry is deleted and
      fails; for any other token the update of its owner is refused, so the
      call throws before the token is deleted. Expiry is strict, so a token
      whose expiry equals `now` reaches the update. */
  function VerifyUserToken(db: Db, token: string, now: int): (r: (Result<User>, Db))
    ensures TokenRecord(db.tokens, token).None? ==> r == (Err("Invalid verification token"), db)
    ensures TokenRecord(db.tokens, token).Some? && TokenRecord(db.tokens, token).value.expires < now
      ==> r == (Err("Verification token has expired"), db.(tokens := DeleteToken(db.tokens, token)))
    ensures TokenRecord(db.tokens, token).Some? && now <= TokenRecord(db.tokens, token).value.expires
      ==> r == (Err(UnknownVerifiedField), db)
  {
    match TokenRecord(db.tokens, token)
    case None => (Err("Invalid verification token"), db)
    case Some(rec) =>
      if rec.expires < now then
        (Err("Verification token has expired"), db.(tokens := DeleteToken(db.tokens, token)))
      else (Err(UnknownVerifiedField), db)
  }

  /** No call succeeds or touches the users, and retrying a token: fails as
      unknown once an expiry deleted it, and fails the same way, on an
      unchanged store, while it is live. */
  lemma VerifyUserTokenRetry(db: Db, token: string, now: int, later: int)
    requires DistinctTokens(db.tokens)
    ensures var (first, db') := VerifyUserToken(db, token, now);
      && first.Err? && db'.users == db.users
      && (first == Err("Verification token has expired")
          ==> VerifyUserToken(db', token, later) == (Err("Invalid verification token"), db'))
      && (first == Err(UnknownVerifiedField) ==> db' == db && VerifyUserToken(db', token, now) == (first, db))
  {
  }

  // ---------------------------------------------------------------------
  // checkVerification

  /** `authHeader?.split(' ')[1]`: the second space-separated field of the
      header, if there is one. */
  function BearerToken(header: Option<string>): (r: Option<string>)
    ensures r.Some? ==> ' ' !in r.value
    ensures header.Some? ==> (r.None? <==> ' ' !in header.value)
  {
    if header.None? then None
    else
      var parts := Split(header.value, ' ');
      if |parts| > 1 then Some(parts[1]) else None
  }

  /** `"Bearer " + t` yields `t` for a token without spaces. */
  lemma BearerTokenOfScheme(scheme: string, t: string)
    requires ' ' !in scheme && ' ' !in t
    ensures BearerToken(Some(scheme + " " + t)) == Some(t)
  {
    assert scheme + " " + t == Join([scheme, t], ' ');
    SplitJoin([scheme, t], ' ');
  }

  /** What the route handler behind the middleware does when called. */
  datatype Next = NextReturns | NextThrows

  /** The middleware's answer; `Passed` means `next()` ran and returned. */
  datatype Gate =
    | NoToken        // 401 "No token provided"
    | NotVerified    // 403 "Email not verified", code EMAIL_NOT_VERIFIED
    | InvalidToken   // 401 "Invalid token"
    | Passed(claims: Jwt.Claims)
  {
    function Status(): int {
      match this
      case NoToken => 401
      case NotVerified => 403
      case InvalidToken => 401
      case Passed(_) => 200
    }
  }

  /** `jwt.verify(t, JWT_SECRET)` succeeds. */
  predicate Accepted(issued: map<string, Jwt.Token>, t: string, env: Option<string>, now: int) {
    t in issued && Jwt.Verify(issued[t], Secret(env), now).Ok?
  }

  function Claims(issued: map<string, Jwt.Token>, t: string): Jwt.Claims
    requires t in issued
  {
    issued[t].claims
  }

  /** `decoded.isVerified` is truthy. */
  predicate VerifiedClaim(claims: Jwt.Claims) {
    "isVerified" in claims && Truthy(claims["isVerified"])
  }

  /** `checkVerification(c, next)` at time `now`. `issued` maps every string
      this server's signer produced to the token it encodes; any other
      string is malformed or forged and fails verification. */
  function CheckVerification(header: Option<string>, issued: map<string, Jwt.Token>, env: Option<string>,
                             now: int, next: Next): (g: Gate)
    ensures g == NoToken <==> !Filled(BearerToken(header))
    ensures g.Passed? <==> (Filled(BearerToken(header)) && Accepted(issued, BearerToken(header).value, env, now)
      && VerifiedClaim(Claims(issued, BearerToken(header).value)) && next == NextReturns)
    ensures g == NotVerified <==> (Filled(BearerToken(header)) && Accepted(issued, BearerToken(header).value, env, now)
      && !VerifiedClaim(Claims(issued, BearerToken(header).value)))
    ensures g.Passed? ==> g.claims == Claims(issued, BearerToken(header).value)
  {
    var t := BearerToken(header);
    if !Filled(t) then NoToken
    else if t.value !in issued then InvalidToken
    else match Jwt.Verify(issued[t.value], Secret(env), now)
      case Err(_) => InvalidToken
      case Ok(claims) =>
        assert claims == Claims(issued, t.value);
        if !VerifiedClaim(claims) then NotVerified
        else if next == NextThrows then InvalidToken
        else
          assert next == NextReturns;
          Passed(claims)
  }
}

=== FILE: base.dfy ===
/** Failure-carrying wrappers shared by every module of the model. */
module Base {

  /** `None` stands for JavaScript's `undefined` / `null` where the source
      reads an optional value. */
  datatype Option<+T> = None | Some(value: T)

  /** The outcome of an operation that may throw: `Err` carries the
      message of the thrown `Error`. */
  datatype Result<+T> = Ok(value: T) | Err(message: string)

  /** The outcome of an operation that returns nothing but may throw. */
  datatype Outcome = Pass | Fail(message: string)
}

=== FILE: codec.dfy ===
/** Text encodings the authentication code uses: hex rendering of random
    bytes (`Buffer.toString('hex')`), `String(n)` and `Number(s)` on user
    ids, and `encodeURIComponent` on link parameters. */
module Codec {
  import opened Base
  import Js

  type Byte = x: int | 0 <= x < 256

  // ---------------------------------------------------------------------
  // hex

  const UpperHexDigits: string := "0123456789ABCDEF"

  predicate IsLowerHex(c: char) {
    '0' <= c <= '9' || 'a' <= c <= 'f'
  }

  /** The lower-case hex digit of a nibble. */
  function HexDigit(v: nat): (c: char)
    requires v < 16
    ensures IsLowerHex(c)
  {
    (if v < 10 then '0' as int + v else 'a' as int + v - 10) as char
  }

  /** Value of a lower-case hex digit. */
  function LowerHexValue(c: char): (v: nat)
    requires IsLowerHex(c)
    ensures v < 16 && HexDigit(v) == c
  {
    if c <= '9' then c as int - '0' as int else c as int - 'a' as int + 10
  }

  /** `Buffer.from(bytes).toString('hex')`: two lower-case digits per byte,
      high nibble first. */
  function HexEncode(bytes: seq<Byte>): (h: string)
    ensures |h| == 2 * |bytes|
    ensures forall i :: 0 <= i < |h| ==> IsLowerHex(h[i])
  {
    if bytes == [] then []
    else [HexDigit(bytes[0] / 16), HexDigit(bytes[0] % 16)] + HexEncode(bytes[1..])
  }

  /** Reads back a lower-case hex string of even length. */
  function HexDecode(h: string): Option<seq<Byte>>
    decreases |h|
  {
    if h == [] then Some([])
    else if |h| == 1 || !IsLowerHex(h[0]) || !IsLowerHex(h[1]) then None
    else match HexDecode(h[2..])
      case None => None
      case Some(rest) => Some([LowerHexValue(h[0]) * 16 + LowerHexValue(h[1])] + rest)
  }

  /** Decoding undoes encoding: no two byte strings share a rendering. */
  lemma {:induction false} HexRoundTrip(bytes: seq<Byte>)
    ensures HexDecode(HexEncode(bytes)) == Some(bytes)
  {
    if bytes != [] {
      var h := HexEncode(bytes);
      var b := bytes[0];
      assert HexDecode(h) == Some([b] + bytes[1..]) by {
        assert h[2..] == HexEncode(bytes[1..]);
        HexRoundTrip(bytes[1..]);
        DigitValues(b);
      }
      assert bytes == [b] + bytes[1..];
    }
  }

  /** Every even-length lower-case hex string is the rendering of the bytes
      it decodes to. */
  lemma {:induction false} HexDecodeEncode(h: string)
    requires |h| % 2 == 0
    requires forall i :: 0 <= i < |h| ==> IsLowerHex(h[i])
    ensures HexDecode(h).Some? && HexEncode(HexDecode(h).value) == h
    decreases |h|
  {
    if h != [] {
      var tail := h[2..];
      assert forall i :: 0 <= i < |tail| ==> IsLowerHex(tail[i]) by {
        assert forall i :: 0 <= i < |tail| ==> tail[i] == h[i + 2];
      }
      HexDecodeEncode(tail);
      var rest := HexDecode(tail).value;
      var hi, lo := LowerHexValue(h[0]), LowerHexValue(h[1]);
      Nibbles(hi, lo);
      var b: Byte := hi * 16 + lo;
      assert HexDecode(h) == Some([b] + rest);
      assert HexEncode([b] + rest) == h by {
        EncodeCons(b, rest);
        assert h == [h[0], h[1]] + tail;
      }
    }
  }

  /** The rendering of a byte string starts with its first byte's digits. */
  lemma EncodeCons(b: Byte, rest: seq<Byte>)
    ensures HexEncode([b] + rest) == [HexDigit(b / 16), HexDigit(b % 16)] + HexEncode(rest)
  {
    assert ([b] + rest)[1..] == rest;
  }

  /** The two digits of a byte read back as its nibbles. */
  lemma DigitValues(b: Byte)
    ensures LowerHexValue(HexDigit(b / 16)) == b / 16 && LowerHexValue(HexDigit(b % 16)) == b % 16
    ensures LowerHexValue(HexDigit(b / 16)) * 16 + LowerHexValue(HexDigit(b % 16)) == b
  {
  }

  /** A byte is determined by its two nibbles. */
  lemma Nibbles(hi: nat, lo: nat)
    requires hi < 16 && lo < 16
    ensures 0 <= hi * 16 + lo < 256
    ensures (hi * 16 + lo) / 16 == hi && (hi * 16 + lo) % 16 == lo
  {
  }

  // ---------------------------------------------------------------------
  // decimal digits: String(n)

  predicate IsDigit(c: char) { '0' <= c <= '9' }

  /** Value of a digit in radices up to 36, 36 for anything else. */
  function DigitValue(c: char): nat {
    if '0' <= c <= '9' then c as int - '0' as int
    else if 'a' <= c <= 'z' then c as int - 'a' as int + 10
    else if 'A' <= c <= 'Z' then c as int - 'A' as int + 10
    else 36
  }

  predicate AllDigitsIn(d: string, radix: nat) {
    forall i :: 0 <= i < |d| ==> DigitValue(d[i]) < radix
  }

  /** Positional value of a digit string, most significant digit first. */
  function RadixValue(d: string, radix: nat): nat {
    if d == [] then 0 else RadixValue(d[..|d| - 1], radix) * radix + DigitValue(d[|d| - 1])
  }

  function DigitChar(n: nat): (c: char)
    requires n < 10
    ensures IsDigit(c) && DigitValue(c) == n
  {
    ('0' as int + n) as char
  }

  /** `String(n)` for a non-negative integer: the canonical decimal
      numeral, which denotes `n` and has no superfluous leading zero. */
  function DecimalString(n: nat): (r: string)
    ensures r != [] && AllDigitsIn(r, 10)
    ensures forall i :: 0 <= i < |r| ==> IsDigit(r[i])
    ensures |r| > 1 ==> r[0] != '0'
    ensures RadixValue(r, 10) == n
  {
    if n < 10 then [DigitChar(n)]
    else
      var r := DecimalString(n / 10) + [DigitChar(n % 10)];
      assert r[..|r| - 1] == DecimalString(n / 10);
      r
  }

  // ---------------------------------------------------------------------
  // Number(s)

  /** What `Number(s)` yields, as far as comparing it with an integer id
      is concerned. */
  datatype JsNumber = NaN | Integer(value: int) | NonInteger

  function Pow10(k: nat): (p: nat)
    ensures p >= 1
  {
    if k == 0 then 1 else 10 * Pow10(k - 1)
  }

  /** `Number(s)` following the StringNumericLiteral grammar of ECMAScript:
      surrounding white space is ignored, the empty string is 0, `0x`/`0o`/
      `0b` prefixes select radix 16/8/2, and otherwise an optionally signed
      decimal with fraction and exponent, or `Infinity`. */
  function ToNumber(s: string): JsNumber {
    var t := Js.Trim(s);
    if t == "" then Integer(0)
    else if |t| >= 2 && t[0] == '0' && (t[1] == 'x' || t[1] == 'X') then RadixLiteral(t[2..], 16)
    else if |t| >= 2 && t[0] == '0' && (t[1] == 'o' || t[1] == 'O') then RadixLiteral(t[2..], 8)
    else if |t| >= 2 && t[0] == '0' && (t[1] == 'b' || t[1] == 'B') then RadixLiteral(t[2..], 2)
    else if t[0] == '+' then UnsignedDecimal(t[1..], 1)
    else if t[0] == '-' then UnsignedDecimal(t[1..], -1)
    else UnsignedDecimal(t, 1)
  }

  function RadixLiteral(d: string, radix: nat): JsNumber {
    if d != [] && AllDigitsIn(d, radix) then Integer(RadixValue(d, radix)) else NaN
  }

  function UnsignedDecimal(u: string, sign: int): JsNumber {
    if u == "Infinity" then NonInteger
    else if 'e' in u || 'E' in u then
      var k := FirstExponentMark(u);
      match Exponent(u[k + 1..])
      case None => NaN
      case Some(e) => Mantissa(u[..k], e, sign)
    else Mantissa(u, 0, sign)
  }

  function FirstExponentMark(u: string): (k: nat)
    requires 'e' in u || 'E' in u
    ensures k < |u| && (u[k] == 'e' || u[k] == 'E')
  {
    if u[0] == 'e' || u[0] == 'E' then 0 else 1 + FirstExponentMark(u[1..])
  }

  /** The optionally signed decimal integer after `e`/`E`. */
  function Exponent(x: string): Option<int> {
    var sign := if x != [] && x[0] == '-' then -1 else 1;
    var d := if x != [] && (x[0] == '-' || x[0] == '+') then x[1..] else x;
    if d != [] && AllDigitsIn(d, 10) then Some(sign * RadixValue(d, 10)) else None
  }

  /** Digits with at most one decimal point and at least one digit, scaled
      by ten to the power `e`. */
  function Mantissa(m: string, e: int, sign: int): JsNumber {
    var a := if '.' in m then m[..Js.IndexOf(m, '.')] else m;
    var b := if '.' in m then m[Js.IndexOf(m, '.') + 1..] else "";
    if |a| + |b| == 0 || !AllDigitsIn(a + b, 10) then NaN
    else
      var digits := RadixValue(a + b, 10);
      var shift := e - |b|;
      if shift >= 0 then Integer(sign * digits * Pow10(shift))
      else if digits % Pow10(-shift) == 0 then Integer(sign * (digits / Pow10(-shift)))
      else NonInteger
  }

  /** `String(n)` for any integer. */
  function IntString(n: int): (r: string)
    ensures r != []
    ensures forall i :: 0 <= i < |r| ==> IsDigit(r[i]) || (i == 0 && r[i] == '-')
  {
    if n >= 0 then DecimalString(n) else "-" + DecimalString(-n)
  }

  /** `Number(String(n)) === n`: a user id survives the round trip through
      the `userId` link parameter. */
  lemma NumberOfIntString(n: int)
    ensures ToNumber(IntString(n)) == Integer(n)
  {
    var r := IntString(n);
    var d := DecimalString(if n >= 0 then n else -n);
    assert !Js.IsSpace(r[0]) && !Js.IsSpace(r[|r| - 1]);
    Js.TrimUntouched(r);
    if n >= 0 {
      assert r[0] != '+' && r[0] != '-';
      assert !(|r| >= 2 && r[0] == '0');
      assert ToNumber(r) == UnsignedDecimal(r, 1);
      NumeralDecimal(r, 1);
    } else {
      assert r[1..] == d;
      assert ToNumber(r) == UnsignedDecimal(d, -1);
      NumeralDecimal(d, -1);
    }
  }

  /** A one-letter string other than an exponent mark, such as `"x"`, is
      no numeral and converts to `NaN`. */
  lemma LetterIsNaN(c: char)
    requires Js.IsAsciiLower(c) && c != 'e'
    ensures ToNumber([c]) == NaN
  {
    LetterShape(c);
    PlainNaN([c]);
  }

  /** What `Number` looks at in a one-letter string. */
  lemma LetterShape(c: char)
    requires Js.IsAsciiLower(c) && c != 'e'
    ensures Js.Trim([c]) == [c]
    ensures [c] != "Infinity" && 'e' !in [c] && 'E' !in [c] && '.' !in [c]
    ensures !AllDigitsIn([c], 10)
  {
    LetterTrim(c);
    LetterMarks(c);
    LetterNotDigits(c);
  }

  lemma LetterTrim(c: char)
    requires Js.IsAsciiLower(c)
    ensures Js.Trim([c]) == [c]
  {
    Js.TrimUntouched([c]);
  }

  lemma LetterMarks(c: char)
    requires Js.IsAsciiLower(c) && c != 'e'
    ensures [c] != "Infinity" && 'e' !in [c] && 'E' !in [c] && '.' !in [c]
  {
    assert |"Infinity"| == 8;
  }

  lemma LetterNotDigits(c: char)
    requires Js.IsAsciiLower(c)
    ensures !AllDigitsIn([c], 10)
  {
    assert !IsDigit([c][0]);
  }

  /** Without surrounding white space, a radix prefix, a sign, an exponent
      mark or a point, a string that is not all digits is `NaN`. */
  lemma PlainNaN(s: string)
    requires s != [] && Js.Trim(s) == s
    requires s[0] != '+' && s[0] != '-' && s[0] != '0'
    requires s != "Infinity" && 'e' !in s && 'E' !in s && '.' !in s
    requires !AllDigitsIn(s, 10)
    ensures ToNumber(s) == NaN
  {
    PlainToNumber(s);
    NoDigitsNaN(s, 1);
  }

  /** Without surrounding white space, a radix prefix or a sign, `Number(s)`
      reads `s` as an unsigned decimal. */
  lemma PlainToNumber(s: string)
    requires s != [] && Js.Trim(s) == s
    requires s[0] != '+' && s[0] != '-' && s[0] != '0'
    ensures ToNumber(s) == UnsignedDecimal(s, 1)
  {
  }

  /** Without an exponent mark or a point, a string that is not all digits
      is `NaN`. */
  lemma NoDigitsNaN(u: string, sign: int)
    requires u != "Infinity" && 'e' !in u && 'E' !in u && '.' !in u
    requires !AllDigitsIn(u, 10)
    ensures UnsignedDecimal(u, sign) == NaN
  {
    assert u + "" == u;
  }

  /** A plain numeral reads as its positional value. */
  lemma NumeralDecimal(r: string, sign: int)
    requires r != [] && forall i :: 0 <= i < |r| ==> IsDigit(r[i])
    ensures UnsignedDecimal(r, sign) == Integer(sign * RadixValue(r, 10))
  {
    assert r != "Infinity" by { assert !IsDigit("Infinity"[0]); }
    assert 'e' !in r && 'E' !in r && '.' !in r by {
      forall i | 0 <= i < |r| ensures r[i] != 'e' && r[i] != 'E' && r[i] != '.' {
        assert IsDigit(r[i]);
      }
    }
    assert AllDigitsIn(r + "", 10) by { assert r + "" == r; }
    assert UnsignedDecimal(r, sign) == Mantissa(r, 0, sign);
    assert r + "" == r;
  }

  // ---------------------------------------------------------------------
  // encodeURIComponent

  /** The code points `encodeURIComponent` leaves as they are. */
  predicate Unreserved(c: char) {
    'A' <= c <= 'Z' || 'a' <= c <= 'z' || '0' <= c <= '9'
    || c == '-' || c == '_' || c == '.' || c == '!' || c == '~' || c == '*'
    || c == '\'' || c == '(' || c == ')'
  }

  /** UTF-8 encoding of one Unicode scalar value. */
  function Utf8(c: char): (bytes: seq<Byte>)
    ensures 1 <= |bytes| <= 4
  {
    var n := c as int;
    if n < 0x80 then [n]
    else if n < 0x800 then [0xC0 + n / 64, 0x80 + n % 64]
    else if n < 0x10000 then [0xE0 + n / 4096, 0x80 + (n / 64) % 64, 0x80 + n % 64]
    else [0xF0 + n / 262144, 0x80 + (n / 4096) % 64, 0x80 + (n / 64) % 64, 0x80 + n % 64]
  }

  /** `%XX` with upper-case hex digits. */
  function PercentByte(b: Byte): string {
    ['%', UpperHexDigits[b / 16], UpperHexDigits[b % 16]]
  }

  function PercentBytes(bytes: seq<Byte>): (r: string)
    ensures |r| == 3 * |bytes|
    ensures bytes != [] ==> r[0] == '%'
  {
    if bytes == [] then [] else PercentByte(bytes[0]) + PercentBytes(bytes[1..])
  }

  function EncodeChar(c: char): string {
    if Unreserved(c) then [c] else PercentBytes(Utf8(c))
  }

  /** `encodeURIComponent(s)`. */
  function EncodeURIComponent(s: string): (r: string)
    ensures |r| >= |s|
  {
    if s == [] then [] else EncodeChar(s[0]) + EncodeURIComponent(s[1..])
  }

  /** Encoding changes a string exactly when it holds a code point outside
      the unreserved set. */
  lemma {:induction false} EncodeIdentityIff(s: string)
    ensures EncodeURIComponent(s) == s <==> forall i :: 0 <= i < |s| ==> Unreserved(s[i])
  {
    if s != [] {
      EncodeIdentityIff(s[1..]);
      var r := EncodeURIComponent(s);
      if Unreserved(s[0]) {
        assert r == [s[0]] + EncodeURIComponent(s[1..]);
        if EncodeURIComponent(s[1..]) == s[1..] {
          assert r == s;
        } else {
          assert r[1..] == EncodeURIComponent(s[1..]);
          assert r != s by { assert r[1..] != s[1..]; }
        }
        assert forall i :: 1 <= i < |s| ==> s[1..][i - 1] == s[i];
      } else {
        assert |EncodeChar(s[0])| >= 3;
        assert |r| > |s|;
      }
    }
  }

  /** Hex strings and decimal numerals pass through unchanged. */
  lemma EncodeHexAndDigits(s: string)
    requires forall i :: 0 <= i < |s| ==> IsLowerHex(s[i])
    ensures EncodeURIComponent(s) == s
  {
    EncodeIdentityIff(s);
  }
}

=== FILE: email_service.dfy ===
/** The pure parts of `emailService` (src/services/email.service.ts):
    message defaulting, link construction, the bounded retry loop and the
    classification of the final error. The SMTP transport is represented by
    the outcome of each delivery attempt. */
module EmailService {
  import opened Base
  import opened Js
  import Codec

  /** The value a failed `transporter.sendMail` threw: its `message` text and
      whether it was an `Error` instance. */
  datatype Thrown = Thrown(message: string, isError: bool)

  /** What the transport does with one attempt. */
  datatype Attempt = Delivered | Failed(thrown: Thrown)

  /** A message as handed to the transport. */
  datatype Mail = Mail(to: string, subject: string, text: string, html: string)

  /** `EmailOptions`: `text` is optional. */
  datatype EmailOptions = EmailOptions(to: string, subject: string, html: string, text: Option<string>)

  /** The number of delivery attempts for a verification mail. */
  const MaxAttempts: nat := 3
  /** The pause after a failed attempt that is followed by another one. */
  const RetryDelayMs: nat := 2000

  // ---------------------------------------------------------------------
  // sendEmail

  /** The message `sendEmail(options)` hands to the transport. */
  function Compose(o: EmailOptions): (m: Mail)
    ensures m.to == o.to && m.subject == o.subject
    ensures Filled(o.text) ==> m.text == o.text.value
    ensures !Filled(o.text) ==> m.text == o.subject
    ensures o.html != "" ==> m.html == o.html
    ensures o.html == "" ==> m.html == "<p>" + m.text + "</p>"
    ensures m.html != ""
  {
    var text := OrElse(OrEmpty(o.text), o.subject);
    Mail(o.to, o.subject, text, OrElse(o.html, "<p>" + text + "</p>"))
  }

  /** The options that describe a composed message exactly. */
  function AsOptions(m: Mail): EmailOptions {
    EmailOptions(m.to, m.subject, m.html, Some(m.text))
  }

  /** Composing is a fixpoint: a composed message, passed back in as
      options, is composed to itself, so the defaults apply only once. */
  lemma ComposeFixpoint(o: EmailOptions)
    ensures Compose(AsOptions(Compose(o))) == Compose(o)
  {
    var m := Compose(o);
    if m.text == "" {
      assert !Filled(o.text) && o.subject == "";
    }
  }

  const SendEmailPrefix: string := "Failed to send email: "

  /** `sendEmail(options)` with one transport attempt: any failure is
      rethrown with its message behind a fixed prefix. */
  function SendEmail(o: EmailOptions, attempt: Attempt): (r: (Mail, Outcome))
    ensures r.0 == Compose(o)
    ensures r.1.Pass? <==> attempt.Delivered?
    ensures r.1.Fail? ==> r.1.message == SendEmailPrefix + attempt.thrown.message
    ensures r.1.Fail? ==> r.1.message[..|SendEmailPrefix|] == SendEmailPrefix
    ensures r.1.Fail? ==> r.1.message[|SendEmailPrefix|..] == attempt.thrown.message
  {
    match attempt
    case Delivered => (Compose(o), Pass)
    case Failed(th) => (Compose(o), Fail(SendEmailPrefix + th.message))
  }

  // ---------------------------------------------------------------------
  // links

  const VerifyPath: string := "/verify-email?token="
  const UserIdParam: string := "&userId="
  const ResetPath: string := "/reset-password?token="

  /** `config.app.baseUrl ?? ''` with one trailing slash removed. */
  function VerificationBase(baseUrl: Option<string>): string {
    var raw := if baseUrl.Some? then baseUrl.value else "";
    if raw != [] && raw[|raw| - 1] == '/' then raw[..|raw| - 1] else raw
  }

  /** The verification link: base, path, and both parameters URI-encoded. */
  function VerificationUrl(baseUrl: Option<string>, token: string, userId: string): string {
    VerificationBase(baseUrl) + VerifyPath + Codec.EncodeURIComponent(token)
      + UserIdParam + Codec.EncodeURIComponent(userId)
  }

  /** A base ending in one slash gives the same link base as the base
      without it; only one slash is removed, so `"b//"` keeps one; and a
      missing base is the empty one. The link depends on the base only
      through `VerificationBase`. */
  lemma VerificationBaseTrailingSlash(b: string)
    ensures b == [] || b[|b| - 1] != '/' ==> VerificationBase(Some(b + "/")) == b && VerificationBase(Some(b)) == b
    ensures VerificationBase(Some(b + "//")) == b + "/"
    ensures VerificationBase(None) == VerificationBase(Some(""))
  {
    assert (b + "/")[..|b|] == b;
    assert (b + "//")[..|b| + 1] == b + "/";
  }

  /** For a hex token and a decimal user id, the link carries both
      verbatim: `base + "/verify-email?token=" + token + "&userId=" + id`. */
  lemma VerificationUrlVerbatim(baseUrl: Option<string>, token: string, id: nat)
    requires forall i :: 0 <= i < |token| ==> Codec.IsLowerHex(token[i])
    ensures VerificationUrl(baseUrl, token, Codec.DecimalString(id))
         == VerificationBase(baseUrl) + VerifyPath + token + UserIdParam + Codec.DecimalString(id)
  {
    Codec.EncodeHexAndDigits(token);
    Codec.EncodeHexAndDigits(Codec.DecimalString(id));
  }

  /** The reset link: the base URL interpolated as is (a missing one prints
      as `undefined`), no slash trimming and no encoding of the token. */
  function ResetUrl(baseUrl: Option<string>, token: string): string {
    (if baseUrl.Some? then baseUrl.value else "undefined") + ResetPath + token
  }

  /** Unlike the verification link, the reset link keeps a trailing slash
      of the base (giving `//reset-password`), spells a missing base as
      `undefined`, and carries the token unencoded, whatever it contains. */
  lemma ResetUrlRaw(b: string, token: string)
    requires b == [] || b[|b| - 1] != '/'
    ensures ResetUrl(Some(b + "/"), token)[..|b| + 1] == b + "/"
    ensures |ResetUrl(Some(b + "/"), token)| == |VerificationBase(Some(b + "/")) + ResetPath + token| + 1
    ensures ResetUrl(None, token)[..9] == "undefined"
    ensures ResetUrl(Some(b), token)[..|b|] == b && ResetUrl(Some(b), token)[|b| + |ResetPath|..] == token
  {
    VerificationBaseTrailingSlash(b);
  }

  /** The templates' call to action, reduced to the link it points at. */
  function LinkHtml(url: string, caption: string): string {
    "<a href=\"" + url + "\">" + caption + "</a>"
  }

  // ---------------------------------------------------------------------
  // the retry loop of sendVerificationEmail

  /** How a bounded run of attempts ended: whether a message went out, how
      many attempts and pauses it took, and the last error if none did. */
  datatype Delivery = Delivery(delivered: bool, attempts: nat, waits: nat, last: Option<Thrown>)

  /** Index of the first delivered attempt among the first `n`. */
  function FirstDelivered(outcomes: seq<Attempt>, n: nat): (r: Option<nat>)
    requires n <= |outcomes|
    ensures r.Some? ==> (r.value < n && outcomes[r.value].Delivered?
      && forall j :: 0 <= j < r.value ==> outcomes[j].Failed?)
    ensures r.None? ==> forall j :: 0 <= j < n ==> outcomes[j].Failed?
  {
    if n == 0 then None
    else match FirstDelivered(outcomes, n - 1)
      case Some(k) => Some(k)
      case None => if outcomes[n - 1].Delivered? then Some(n - 1) else None
  }

  /** The loop with `retries` attempts left after `used` failed ones: stop at
      the first delivery; after a failure either pause and go on or, with no
      retries left, give up with that failure. */
  function Retry(outcomes: seq<Attempt>, retries: nat, used: nat): (d: Delivery)
    requires retries >= 1 && used + retries <= |outcomes|
    requires forall j :: 0 <= j < used ==> outcomes[j].Failed?
    ensures used < d.attempts <= used + retries
    ensures d.waits == d.attempts - 1
    ensures d.delivered ==> (outcomes[d.attempts - 1].Delivered?
      && forall j :: 0 <= j < d.attempts - 1 ==> outcomes[j].Failed?)
    ensures !d.delivered ==> (d.attempts == used + retries
      && (forall j :: 0 <= j < d.attempts ==> outcomes[j].Failed?)
      && d.last == Some(outcomes[d.attempts - 1].thrown))
    decreases retries
  {
    match outcomes[used]
    case Delivered => Delivery(true, used + 1, used, None)
    case Failed(th) =>
      if retries - 1 == 0 then Delivery(false, used + 1, used, Some(th))
      else Retry(outcomes, retries - 1, used + 1)
  }

  /** The send loop of `sendVerificationEmail` with `retries = 3`. */
  function SendWithRetries(outcomes: seq<Attempt>): (d: Delivery)
    requires |outcomes| >= MaxAttempts
    ensures d.delivered <==> FirstDelivered(outcomes, MaxAttempts).Some?
    ensures d.delivered ==> d.attempts == FirstDelivered(outcomes, MaxAttempts).value + 1
    ensures !d.delivered ==> d.attempts == MaxAttempts && d.last == Some(outcomes[MaxAttempts - 1].thrown)
    ensures d.waits == d.attempts - 1 && d.waits < MaxAttempts
  {
    var d := Retry(outcomes, MaxAttempts, 0);
    var k := FirstDelivered(outcomes, MaxAttempts);
    assert d.delivered ==> k.Some? && k.value == d.attempts - 1;
    d
  }

  /** The loop exactly as written, a countdown of `retries` from 3, agrees
      with the recursive model. */
  method SendLoop(outcomes: seq<Attempt>) returns (d: Delivery)
    requires |outcomes| >= MaxAttempts
    ensures d == SendWithRetries(outcomes)
  {
    var retries := MaxAttempts;
    var used := 0;
    var waits := 0;
    while retries > 0
      invariant 0 < retries <= MaxAttempts && used + retries == MaxAttempts && waits == used
      invariant forall j :: 0 <= j < used ==> outcomes[j].Failed?
      invariant Retry(outcomes, retries, used) == SendWithRetries(outcomes)
      decreases retries
    {
      match outcomes[used]
      case Delivered =>
        return Delivery(true, used + 1, waits, None);
      case Failed(th) =>
        retries := retries - 1;
        if retries == 0 {
          return Delivery(false, used + 1, waits, Some(th));
        }
        waits := waits + 1;
        used := used + 1;
    }
    assert false;
  }

  /** Total pause of a run: two seconds per wait. */
  function WaitedMs(d: Delivery): nat {
    d.waits * RetryDelayMs
  }

  // ---------------------------------------------------------------------
  // error classification

  /** `s.includes(sub)`. */
  predicate Contains(s: string, sub: string) {
    |sub| <= |s| && (s[..|sub|] == sub || Contains(s[1..], sub))
  }

  /** `sub` occurs in `s` starting at position `i`. */
  predicate OccursAt(s: string, sub: string, i: int) {
    0 <= i <= |s| - |sub| && s[i..i + |sub|] == sub
  }

  /** `sub` occurs in `s` at some position. */
  ghost predicate Occurs(s: string, sub: string) {
    exists i :: OccursAt(s, sub, i)
  }

  /** An occurrence in the tail is an occurrence one place later. */
  lemma OccursShift(s: string, sub: string, i: int)
    requires |s| > 0 && OccursAt(s[1..], sub, i)
    ensures OccursAt(s, sub, i + 1)
  {
    assert s[i + 1..i + 1 + |sub|] == s[1..][i..i + |sub|];
  }

  /** An occurrence after the head is an occurrence in the tail. */
  lemma OccursUnshift(s: string, sub: string, i: int)
    requires 0 < i && OccursAt(s, sub, i)
    ensures OccursAt(s[1..], sub, i - 1)
  {
    assert s[1..][i - 1..i - 1 + |sub|] == s[i..i + |sub|];
  }

  /** `Contains` is substring occurrence. */
  lemma {:induction false} ContainsIff(s: string, sub: string)
    ensures Contains(s, sub) <==> Occurs(s, sub)
    decreases |s|
  {
    if |sub| <= |s| {
      if s[..|sub|] == sub {
        assert OccursAt(s, sub, 0);
      } else {
        ContainsIff(s[1..], sub);
        if Contains(s[1..], sub) {
          var i :| OccursAt(s[1..], sub, i);
          OccursShift(s, sub, i);
        }
        if Occurs(s, sub) {
          var i :| OccursAt(s, sub, i);
          assert i != 0;
          OccursUnshift(s, sub, i);
        }
      }
    }
  }

  /** Both explanations of known Gmail errors start so. */
  const GmailPrefix: string := "Gmail "
  const AuthFailedMessage: string := GmailPrefix + "authentication failed. Please check your SMTP credentials."
  const RejectedMessage: string := GmailPrefix + "rejected the email. Please check your account limits or content."

  function GenericFailure(email: string): string {
    "Failed to send verification to " + email + ". Please try again later."
  }

  /** The error `sendVerificationEmail` throws once its attempts are spent:
      known Gmail errors get a fixed explanation, checked in this order,
      and anything else the generic message naming the recipient. */
  function Classify(th: Thrown, email: string): (msg: string)
    ensures th.isError && Contains(th.message, "Invalid login") ==> msg == AuthFailedMessage
    ensures th.isError && !Contains(th.message, "Invalid login") && Contains(th.message, "Message rejected")
      ==> msg == RejectedMessage
    ensures !(th.isError && (Contains(th.message, "Invalid login") || Contains(th.message, "Message rejected")))
      ==> msg == GenericFailure(email)
  {
    if th.isError && Contains(th.message, "Invalid login") then AuthFailedMessage
    else if th.isError && Contains(th.message, "Message rejected") then RejectedMessage
    else GenericFailure(email)
  }

  /** The message tells which branch was taken: it is the authentication
      message exactly when the thrown `Error` mentions "Invalid login", the
      rejection message exactly when it mentions "Message rejected" but not
      that, and names the address exactly when neither applies. */
  lemma ClassifyTells(th: Thrown, email: string)
    ensures Classify(th, email) == AuthFailedMessage <==> th.isError && Occurs(th.message, "Invalid login")
    ensures Classify(th, email) == RejectedMessage
      <==> th.isError && !Occurs(th.message, "Invalid login") && Occurs(th.message, "Message rejected")
    ensures Classify(th, email) == GenericFailure(email)
      <==> !(th.isError && (Occurs(th.message, "Invalid login") || Occurs(th.message, "Message rejected")))
  {
    ContainsIff(th.message, "Invalid login");
    ContainsIff(th.message, "Message rejected");
    MessagesDistinct(email);
  }

  /** The three failure messages differ, whatever the address. */
  lemma MessagesDistinct(email: string)
    ensures AuthFailedMessage != RejectedMessage
    ensures GenericFailure(email) != AuthFailedMessage && GenericFailure(email) != RejectedMessage
  {
    assert |AuthFailedMessage| != |RejectedMessage|;
    assert GenericFailure(email)[0] == 'F';
    assert AuthFailedMessage[0] == 'G' && RejectedMessage[0] == 'G';
  }

  // ---------------------------------------------------------------------
  // the two mails

  const VerifySubject: string := "Verify Your DHVSU Account"
  const VerifyTextPrefix: string := "Please verify your DHVSU account by visiting:\n"

  /** The verification mail for `email` carrying `url`. */
  function VerificationMail(email: string, url: string): Mail {
    Mail(email, VerifySubject, VerifyTextPrefix + url, LinkHtml(url, "Verify Email Address"))
  }

  /** `sendVerificationEmail(email, token, userId)`: build the link, try up
      to three deliveries of the same mail, and on final failure throw the
      classified error. */
  function SendVerificationEmail(email: string, token: string, userId: string, baseUrl: Option<string>,
                                 outcomes: seq<Attempt>): (r: (Mail, Outcome))
    requires |outcomes| >= MaxAttempts
    ensures r.0 == VerificationMail(email, VerificationUrl(baseUrl, token, userId))
    ensures r.1.Pass? <==> exists j :: 0 <= j < MaxAttempts && outcomes[j].Delivered?
    ensures r.1.Fail? ==> r.1.message == Classify(outcomes[MaxAttempts - 1].thrown, email)
  {
    var mail := VerificationMail(email, VerificationUrl(baseUrl, token, userId));
    var d := SendWithRetries(outcomes);
    if d.delivered then (mail, Pass)
    else (mail, Fail(Classify(d.last.value, email)))
  }

  const ResetSubject: string := "Password Reset Request"

  /** `sendPasswordResetEmail(email, token)`: one `sendEmail` of the reset
      link, no retries. */
  function SendPasswordResetEmail(email: string, token: string, baseUrl: Option<string>, attempt: Attempt)
    : (r: (Mail, Outcome))
    ensures r.0.to == email && r.0.subject == ResetSubject
    ensures r.0.text == ResetSubject
    ensures r.0.html == LinkHtml(ResetUrl(baseUrl, token), "Reset Password")
    ensures r.1.Pass? <==> attempt.Delivered?
  {
    SendEmail(EmailOptions(email, ResetSubject, LinkHtml(ResetUrl(baseUrl, token), "Reset Password"), None), attempt)
  }
}

=== FILE: findings.dfy ===
/** Two places where src/utils/auth.ts disagrees with the rest of the
    code, each stated as a lemma about the code as written, next to a
    corrected definition with the intended property proved.

    The sessions that login and email verification issue record the flag
    as `is_verified`, while `checkVerification` reads `isVerified`. So the
    gate answers 403 "Email not verified" to the session of a user who is
    verified. The corrected gate reads the flag under either name; it
    admits those sessions and still refuses an unverified user's token.

    `verifyUserToken` updates the owner with a `verified` field, while the
    flag is `is_verified` everywhere else. So the update is refused and a
    live token never verifies anyone. The corrected version sets
    `is_verified` and deletes the token. */
module Findings {
  import opened Base
  import opened Js
  import opened Store
  import Codec
  import Jwt
  import opened AuthUtils
  import opened EmailService
  import opened AuthController

  /** The verification flag under either spelling the issuers use. */
  predicate VerifiedFlag(claims: Jwt.Claims) {
    || ("isVerified" in claims && Truthy(claims["isVerified"]))
    || ("is_verified" in claims && Truthy(claims["is_verified"]))
  }

  /** `checkVerification` reading the flag under either spelling; in all
      else as written. */
  function CheckVerificationCorrected(header: Option<string>, issued: map<string, Jwt.Token>, env: Option<string>,
                                     now: int, next: Next): (g: Gate)
    ensures g == NoToken <==> !Filled(BearerToken(header))
    ensures g.Passed? <==> (Filled(BearerToken(header)) && Accepted(issued, BearerToken(header).value, env, now)
      && VerifiedFlag(Claims(issued, BearerToken(header).value)) && next == NextReturns)
    ensures g == Gate.NotVerified <==> (Filled(BearerToken(header)) && Accepted(issued, BearerToken(header).value, env, now)
      && !VerifiedFlag(Claims(issued, BearerToken(header).value)))
    ensures g.Passed? ==> g.claims == Claims(issued, BearerToken(header).value)
  {
    var t := BearerToken(header);
    if !Filled(t) then NoToken
    else if t.value !in issued then InvalidToken
    else match Jwt.Verify(issued[t.value], Secret(env), now)
      case Err(_) => InvalidToken
      case Ok(claims) =>
        assert claims == Claims(issued, t.value);
        if !VerifiedFlag(claims) then Gate.NotVerified
        else if next == NextThrows then InvalidToken
        else
          assert next == NextReturns;
          Passed(claims)
  }

  /** A token signed with the configured secret, not yet expired, whose
      flag is set under `is_verified` only, presented as `Bearer <s>`: the
      gate as written refuses it as unverified, the corrected gate lets it
      through. */
  lemma GateOnSnakeCaseFlag(t: Jwt.Token, issued: map<string, Jwt.Token>, s: string,
                            secret: Option<string>, later: int, next: Next)
    requires Filled(secret) && t.secret == secret.value && Jwt.Seconds(later) < t.exp
    requires "isVerified" !in t.claims && "is_verified" in t.claims && Truthy(t.claims["is_verified"])
    requires s != "" && ' ' !in s && s in issued && issued[s] == t
    ensures Accepted(issued, s, secret, later)
    ensures CheckVerification(Some("Bearer " + s), issued, secret, later, next) == Gate.NotVerified
    ensures CheckVerificationCorrected(Some("Bearer " + s), issued, secret, later, next)
         == (if next == NextReturns then Passed(t.claims) else InvalidToken)
  {
    BearerTokenOfScheme("Bearer", s);
  }

  /** A login session of a verified user, presented before it expires
      with `JWT_SECRET` set (so both sides share the secret), is accepted
      as a signature but refused as unverified; the corrected gate admits
      it. */
  lemma GateRefusesVerifiedSession(db: Db, req: LoginRequest, matches: (string, string) -> bool,
                                   random: seq<Codec.Byte>, outcomes: seq<Attempt>, env: Env,
                                   issued: map<string, Jwt.Token>, s: string, later: int)
    requires |random| == 32 && |outcomes| >= MaxAttempts && DistinctTokens(db.tokens)
    requires Filled(env.jwtSecret)
    requires Login(db, req, matches, random, outcomes, env).response.LoggedIn?
    requires s != "" && ' ' !in s
    requires s in issued && issued[s] == Login(db, req, matches, random, outcomes, env).response.token
    requires env.now <= later && Jwt.Seconds(later) < Jwt.Seconds(env.now) + Jwt.TwoHours
    ensures Verified(Login(db, req, matches, random, outcomes, env).response.user)
    ensures forall next :: CheckVerification(Some("Bearer " + s), issued, env.jwtSecret, later, next) == Gate.NotVerified
    ensures CheckVerificationCorrected(Some("Bearer " + s), issued, env.jwtSecret, later, NextReturns)
         == Passed(issued[s].claims)
  {
    var r := Login(db, req, matches, random, outcomes, env);
    assert Session(db, r, req, env);
    assert "isVerified" !in SessionClaims(r.response.user);
    forall next {
      GateOnSnakeCaseFlag(r.response.token, issued, s, env.jwtSecret, later, next);
    }
  }

  /** Likewise the session `verifyEmailController` issues on success,
      which says `is_verified: true` in so many words. */
  lemma GateRefusesConfirmedSession(db: Db, token: Option<string>, userId: Option<string>, env: Env,
                                    issued: map<string, Jwt.Token>, s: string, later: int)
    requires Filled(env.jwtSecret)
    requires VerifyEmail(db, token, userId, env).response.EmailVerified?
    requires s != "" && ' ' !in s
    requires s in issued && issued[s] == VerifyEmail(db, token, userId, env).response.token
    requires env.now <= later && Jwt.Seconds(later) < Jwt.Seconds(env.now) + Jwt.TwoHours
    ensures issued[s].claims["is_verified"] == JBool(true)
    ensures forall next :: CheckVerification(Some("Bearer " + s), issued, env.jwtSecret, later, next) == Gate.NotVerified
    ensures CheckVerificationCorrected(Some("Bearer " + s), issued, env.jwtSecret, later, NextReturns)
         == Passed(issued[s].claims)
  {
    var r := VerifyEmail(db, token, userId, env);
    assert Confirmed(db, r, token.value, env);
    var t := r.response.token;
    assert t.claims == VerifiedClaims(r.response.user);
    assert "isVerified" !in t.claims;
    forall next {
      GateOnSnakeCaseFlag(t, issued, s, env.jwtSecret, later, next);
    }
  }

  /** The corrected gate still refuses the token signup issues to a user
      who is not verified, as the original does. */
  lemma CorrectedGateRefusesUnverified(db: Db, req: SignupRequest, hash: string, env: Env,
                                       issued: map<string, Jwt.Token>, s: string, later: int, next: Next)
    requires Signup(db, req, hash, env).response.Created?
    requires !Verified(Signup(db, req, hash, env).response.user)
    requires s != "" && ' ' !in s
    requires s in issued && issued[s] == Signup(db, req, hash, env).response.token
    requires env.now <= later && Jwt.Seconds(later) < Jwt.Seconds(env.now) + Jwt.SevenDays
    ensures CheckVerificationCorrected(Some("Bearer " + s), issued, env.jwtSecret, later, next) == Gate.NotVerified
    ensures CheckVerification(Some("Bearer " + s), issued, env.jwtSecret, later, next) == Gate.NotVerified
  {
    var r := Signup(db, req, hash, env);
    assert SignupToken(r.response.user, r.response.token, env);
    BearerTokenOfScheme("Bearer", s);
    assert "is_verified" !in r.response.token.claims;
  }

  // ---------------------------------------------------------------------
  // verifyUserToken

  /** `verifyUserToken` with the update writing `is_verified`; in all else
      as written. An unknown token fails and changes nothing; an expired one
      is deleted and fails; otherwise the owner is marked verified, the
      token is deleted, and the updated owner is returned. */
  function VerifyUserTokenCorrected(db: Db, token: string, now: int): (r: (Result<User>, Db))
    ensures TokenRecord(db.tokens, token).None? ==> r == (Err("Invalid verification token"), db)
    ensures TokenRecord(db.tokens, token).Some? && TokenRecord(db.tokens, token).value.expires < now
      ==> r == (Err("Verification token has expired"), db.(tokens := DeleteToken(db.tokens, token)))
    ensures r.0.Ok? <==> (TokenRecord(db.tokens, token).Some? && now <= TokenRecord(db.tokens, token).value.expires
      && HasUser(db.users, TokenRecord(db.tokens, token).value.userId))
    ensures r.0.Ok? ==> Consumed(db, r.1, token, r.0.value)
  {
    match TokenRecord(db.tokens, token)
    case None => (Err("Invalid verification token"), db)
    case Some(rec) =>
      if rec.expires < now then
        (Err("Verification token has expired"), db.(tokens := DeleteToken(db.tokens, token)))
      else match UserById(db.users, rec.userId)
        case None => (Err("Record to update not found."), db)
        case Some(u) =>
          var u' := u.(isVerified := Some(true));
          var users := SetUser(db.users, u');
          assert users[IndexOfUser(db.users, u)] == u';
          (Ok(u'), db.(users := users, tokens := DeleteToken(db.tokens, token)))
  }

  /** `db'` is `db` after a successful consumption of `token` that returned
      `u`: the token's owner is now verified and is `u`, nothing else about
      the users changed, and exactly that token row is gone. */
  ghost predicate Consumed(db: Db, db': Db, token: string, u: User) {
    && TokenRecord(db.tokens, token).Some?
    && UserById(db.users, TokenRecord(db.tokens, token).value.userId).Some?
    && u == UserById(db.users, TokenRecord(db.tokens, token).value.userId).value.(isVerified := Some(true))
    && Verified(u)
    && u in db'.users
    && |db'.users| == |db.users|
    && (forall i :: 0 <= i < |db.users| ==> db'.users[i] == if db.users[i].id == u.id then u else db.users[i])
    && TokenRecord(db'.tokens, token).None?
    && (forall x :: x in db'.tokens <==> x in db.tokens && x.token != token)
    && db'.resets == db.resets && db'.nextUserId == db.nextUserId && db'.defaults == db.defaults
  }

  function IndexOfUser(us: seq<User>, u: User): (i: nat)
    requires u in us
    ensures i < |us| && us[i] == u
  {
    if us[0] == u then 0 else 1 + IndexOfUser(us[1..], u)
  }

  /** With the correction a token is single-use: a second attempt fails as
      unknown, whether the first succeeded or found it expired. */
  lemma VerifyUserTokenCorrectedOnce(db: Db, token: string, now: int, later: int)
    requires DistinctTokens(db.tokens)
    requires TokenRecord(db.tokens, token).Some?
    ensures var (first, db') := VerifyUserTokenCorrected(db, token, now);
      first.Ok? || first == Err("Verification token has expired")
      ==> VerifyUserTokenCorrected(db', token, later) == (Err("Invalid verification token"), db')
  {
  }

  /** A live token of an existing user who is not verified: as written the
      call fails, the owner stays unverified and the token stays stored;
      the corrected call verifies the owner and consumes the token. */
  lemma TokenNeverVerifies(db: Db, token: string, now: int)
    requires TokenRecord(db.tokens, token).Some? && now <= TokenRecord(db.tokens, token).value.expires
    requires UserById(db.users, TokenRecord(db.tokens, token).value.userId).Some?
    requires !Verified(UserById(db.users, TokenRecord(db.tokens, token).value.userId).value)
    ensures var (first, db') := VerifyUserToken(db, token, now);
      && first == Err(UnknownVerifiedField)
      && !Verified(UserById(db'.users, TokenRecord(db.tokens, token).value.userId).value)
      && TokenRecord(db'.tokens, token) == TokenRecord(db.tokens, token)
    ensures var (fixed, db') := VerifyUserTokenCorrected(db, token, now);
      && fixed.Ok? && Verified(fixed.value)
      && fixed.value.id == TokenRecord(db.tokens, token).value.userId
      && fixed.value in db'.users
      && TokenRecord(db'.tokens, token).None?
  {
    var rec := TokenRecord(db.tokens, token).value;
    assert HasUser(db.users, rec.userId) by {
      var u := UserById(db.users, rec.userId).value;
      var i :| 0 <= i < |db.users| && db.users[i] == u;
    }
  }
}

=== FILE: invariants.dfy ===
/** Invariants every handler keeps: the schema's unique and foreign-key
    constraints (`Wellformed`), and the verified flag, which no request
    ever clears. */
module Invariants {
  import opened Base
  import opened Store
  import Codec
  import opened EmailService
  import opened AuthController
  import Lifecycle
  import Jwt

  /** Every user verified in `us` is still present, and verified, in `us'`. */
  ghost predicate KeepsVerified(us: seq<User>, us': seq<User>) {
    forall i :: 0 <= i < |us| && Verified(us[i]) ==>
      exists j :: 0 <= j < |us'| && us'[j].id == us[i].id && Verified(us'[j])
  }

  /** A table that keeps every row's position and id and never clears a
      flag keeps every verified user verified. */
  lemma KeepsVerifiedPointwise(us: seq<User>, us': seq<User>)
    requires |us'| == |us|
    requires forall i :: 0 <= i < |us| ==> us'[i].id == us[i].id && (Verified(us[i]) ==> Verified(us'[i]))
    ensures KeepsVerified(us, us')
  {
    forall i | 0 <= i < |us| && Verified(us[i])
      ensures exists j :: 0 <= j < |us'| && us'[j].id == us[i].id && Verified(us'[j])
    {
      assert us'[i].id == us[i].id && Verified(us'[i]);
    }
  }

  /** Rewriting the row of `old_` keeps the verified flags of all other
      rows, and of `old_` too when the new row is verified whenever the old
      one was. */
  lemma SetUserKeepsVerified(us: seq<User>, old_: User, u: User)
    requires DistinctUsers(us) && old_ in us && old_.id == u.id
    requires Verified(old_) ==> Verified(u)
    ensures KeepsVerified(us, SetUser(us, u))
  {
    var k :| 0 <= k < |us| && us[k] == old_;
    forall i | 0 <= i < |us|
      ensures SetUser(us, u)[i].id == us[i].id && (Verified(us[i]) ==> Verified(SetUser(us, u)[i]))
    {
      if us[i].id == u.id {
        assert i == k;
      }
    }
    KeepsVerifiedPointwise(us, SetUser(us, u));
  }

  /** Appending rows keeps every existing user. */
  lemma AppendKeepsUsers(us: seq<User>, u: User)
    ensures forall id :: HasUser(us, id) ==> HasUser(us + [u], id)
    ensures KeepsVerified(us, us + [u])
  {
    forall id | HasUser(us, id) ensures HasUser(us + [u], id) {
      var i :| 0 <= i < |us| && us[i].id == id;
      assert (us + [u])[i].id == id;
    }
    forall i | 0 <= i < |us| && Verified(us[i])
      ensures exists j :: 0 <= j < |us + [u]| && (us + [u])[j].id == us[i].id && Verified((us + [u])[j])
    {
      assert (us + [u])[i] == us[i];
    }
  }

  /** A token table whose rows are all rows of an owned table is owned. */
  lemma SubTableOwned(ts: seq<VerificationToken>, ts': seq<VerificationToken>, us: seq<User>)
    requires OwnedTokens(ts, us)
    requires forall x :: x in ts' ==> x in ts
    ensures OwnedTokens(ts', us)
  {
    forall i | 0 <= i < |ts'| ensures HasUser(us, ts'[i].userId) {
      assert ts'[i] in ts;
      var j :| 0 <= j < |ts| && ts[j] == ts'[i];
    }
  }

  // ---------------------------------------------------------------------
  // the handlers

  lemma SignupPreserves(db: Db, req: SignupRequest, hash: string, env: Env)
    requires Wellformed(db)
    ensures Wellformed(Signup(db, req, hash, env).db)
    ensures KeepsVerified(db.users, Signup(db, req, hash, env).db.users)
  {
    var r := Signup(db, req, hash, env);
    if r.response.Created? {
      var u := r.response.user;
      AppendKeepsUsers(db.users, u);
      assert UserByEmailOrUsername(db.users, req.email, req.username).None?;
      assert DistinctUsers(r.db.users) by {
        forall i, j | 0 <= i < j < |r.db.users|
          ensures r.db.users[i].id != r.db.users[j].id && r.db.users[i].email != r.db.users[j].email
               && r.db.users[i].username != r.db.users[j].username
        {
          if j == |db.users| {
            assert r.db.users[j] == u && r.db.users[i] == db.users[i];
          }
        }
      }
      assert OwnedTokens(r.db.tokens, r.db.users) by {
        forall i | 0 <= i < |r.db.tokens| ensures HasUser(r.db.users, r.db.tokens[i].userId) {
          assert HasUser(db.users, db.tokens[i].userId);
        }
      }
      assert forall k :: k in r.db.resets ==> HasUser(db.users, k);
    } else {
      KeepsVerifiedPointwise(db.users, db.users);
    }
  }

  lemma LoginPreserves(db: Db, req: LoginRequest, matches: (string, string) -> bool,
                       random: seq<Codec.Byte>, outcomes: seq<Attempt>, env: Env)
    requires Wellformed(db) && |random| == 32 && |outcomes| >= MaxAttempts
    ensures Wellformed(Login(db, req, matches, random, outcomes, env).db)
    ensures KeepsVerified(db.users, Login(db, req, matches, random, outcomes, env).db.users)
  {
    var r := Login(db, req, matches, random, outcomes, env);
    if r.response.LoggedIn? {
      var u := r.response.user;
      SetUserKeepsKeys(db.users, u.(lastLogin := Some(env.now)), u);
      SetUserKeepsVerified(db.users, u, u.(lastLogin := Some(env.now)));
      assert forall i :: 0 <= i < |r.db.users| ==> r.db.users[i].id == db.users[i].id;
    } else {
      KeepsVerifiedPointwise(db.users, db.users);
      if r.response.NotVerified? || r.response == EmailSendFailed {
        var u := UserByEmail(db.users, req.email.value).value;
        assert r == UnverifiedLogin(db, u, random, outcomes, env);
        UnverifiedOwned(db, u, random, env.now);
      }
    }
  }

  /** Every row of the token table the unverified branch leaves has an
      existing owner. */
  lemma UnverifiedOwned(db: Db, u: User, random: seq<Codec.Byte>, now: int)
    requires Wellformed(db) && |random| == 32 && u in db.users
    ensures OwnedTokens(LinkTable(db, u, random, now), db.users)
  {
    var ts := LinkTable(db, u, random, now);
    if LiveToken(db, u, now).None? {
      var hex := Codec.HexEncode(random);
      forall i | 0 <= i < |ts| ensures HasUser(db.users, ts[i].userId) {
        var x := ts[i];
        if x.token == hex {
          Lifecycle.RecordOfRow(ts, x);
          if TokenRecord(db.tokens, hex).Some? {
            var y := TokenRecord(db.tokens, hex).value;
            var j :| 0 <= j < |db.tokens| && db.tokens[j] == y;
          } else {
            var j :| 0 <= j < |db.users| && db.users[j] == u;
          }
        } else {
          assert x in ts;
          var j :| 0 <= j < |db.tokens| && db.tokens[j] == x;
        }
      }
    }
  }

  lemma VerifyEmailPreserves(db: Db, token: Option<string>, userId: Option<string>, env: Env)
    requires Wellformed(db)
    ensures Wellformed(VerifyEmail(db, token, userId, env).db)
    ensures KeepsVerified(db.users, VerifyEmail(db, token, userId, env).db.users)
  {
    var r := VerifyEmail(db, token, userId, env);
    if r.response.EmailVerified? {
      var u := r.response.user;
      SetUserKeepsKeys(db.users, u.(isVerified := Some(true)), u);
      SetUserKeepsVerified(db.users, u, u.(isVerified := Some(true)));
      assert forall i :: 0 <= i < |r.db.users| ==> r.db.users[i].id == db.users[i].id;
      SubTableOwned(db.tokens, r.db.tokens, db.users);
      assert OwnedTokens(r.db.tokens, r.db.users) by {
        forall i | 0 <= i < |r.db.tokens| ensures HasUser(r.db.users, r.db.tokens[i].userId) {
          assert HasUser(db.users, r.db.tokens[i].userId);
        }
      }
      assert forall k :: k in r.db.resets ==> HasUser(r.db.users, k) by {
        forall k | k in r.db.resets ensures HasUser(r.db.users, k) {
          assert HasUser(db.users, k);
        }
      }
    } else {
      KeepsVerifiedPointwise(db.users, db.users);
      if r.response == VerificationExpired {
        SubTableOwned(db.tokens, r.db.tokens, db.users);
      }
    }
  }

  /** Appending a row under an unused token string, owned by an existing
      user, to a well-formed table keeps it well-formed. */
  lemma AppendOwned(db: Db, cleared: seq<VerificationToken>, n: VerificationToken)
    requires Wellformed(db) && DistinctTokens(cleared) && OwnedTokens(cleared, db.users)
    requires TokenRecord(cleared, n.token).None? && HasUser(db.users, n.userId)
    ensures Wellformed(db.(tokens := cleared + [n]))
  {
    assert forall i :: 0 <= i < |cleared| ==> cleared[i].token != n.token;
  }

  lemma ResendPreserves(db: Db, email: string, random: seq<Codec.Byte>, outcomes: seq<Attempt>, env: Env)
    requires Wellformed(db) && |random| == 32 && |outcomes| >= MaxAttempts
    ensures Wellformed(Resend(db, email, random, outcomes, env).db)
    ensures Resend(db, email, random, outcomes, env).db.users == db.users
  {
    if UserByEmail(db.users, email).Some? && !Verified(UserByEmail(db.users, email).value) {
      ResentTableWellformed(db, UserByEmail(db.users, email).value, Codec.HexEncode(random), env.now);
    }
  }

  /** Replacing an existing user's rows by the table a resend leaves keeps
      the store well-formed. */
  lemma ResentTableWellformed(db: Db, u: User, t: string, now: int)
    requires Wellformed(db) && u in db.users
    ensures Wellformed(db.(tokens := ResentTable(db.tokens, u.id, t, now)))
  {
    var cleared := DeleteUserTokens(db.tokens, u.id);
    SubTableOwned(db.tokens, cleared, db.users);
    if TokenRecord(cleared, t).None? {
      assert HasUser(db.users, u.id) by { var i :| 0 <= i < |db.users| && db.users[i] == u; }
      AppendOwned(db, cleared, VerificationToken(t, u.id, now + VerificationTtl, now));
    }
  }

  lemma ForgotPreserves(db: Db, email: string, compact: Jwt.Token -> string, attempt: Attempt, env: Env)
    requires Wellformed(db)
    ensures Wellformed(ForgotPassword(db, email, compact, attempt, env).db)
    ensures ForgotPassword(db, email, compact, attempt, env).db.users == db.users
  {
    var r := ForgotPassword(db, email, compact, attempt, env);
    if r.response != ForgotUserNotFound {
      var u := UserByEmail(db.users, email).value;
      assert HasUser(db.users, u.id) by {
        var j :| 0 <= j < |db.users| && db.users[j] == u;
      }
    }
  }
}

=== FILE: js.dfy ===
/** The parts of JavaScript's value and string semantics that the
    authentication code relies on: truthiness, `String.prototype.split`
    on one character, `trim` and `toUpperCase`. */
module Js {
  import opened Base

  /** A JSON value as it appears in request bodies and token claims.
      Numbers are integers: every number the model handles is an id. */
  datatype Json = JNull | JBool(b: bool) | JNum(n: int) | JStr(s: string)

  /** JavaScript truthiness of a present value. */
  predicate Truthy(v: Json) {
    match v
    case JNull => false
    case JBool(b) => b
    case JNum(n) => n != 0
    case JStr(s) => s != ""
  }

  /** Truthiness of a possibly `undefined` value. */
  predicate Present(v: Option<Json>) {
    v.Some? && Truthy(v.value)
  }

  /** A possibly missing string field is truthy when present and non-empty. */
  predicate Filled(s: Option<string>) {
    s.Some? && s.value != ""
  }

  /** `a || b` on two strings. */
  function OrElse(a: string, b: string): string {
    if a != "" then a else b
  }

  /** `(x || "")` on a nullable string column. */
  function OrEmpty(x: Option<string>): string {
    if x.Some? then x.value else ""
  }

  // ---------------------------------------------------------------------
  // split on a single character

  /** Index of the first occurrence of `c` in `s`. */
  function IndexOf(s: string, c: char): (i: nat)
    requires c in s
    ensures i < |s| && s[i] == c
    ensures c !in s[..i]
  {
    if s[0] == c then 0 else 1 + IndexOf(s[1..], c)
  }

  /** Reassembles pieces with `sep` between consecutive ones
      (`Array.prototype.join`). */
  function Join(parts: seq<string>, sep: char): string
    requires |parts| >= 1
  {
    if |parts| == 1 then parts[0] else parts[0] + [sep] + Join(parts[1..], sep)
  }

  /** `s.split(sep)` for a one-character separator: the maximal pieces
      between occurrences of `sep`; the empty string splits into one empty
      piece. */
  function Split(s: string, sep: char): (parts: seq<string>)
    ensures |parts| >= 1
    ensures forall i :: 0 <= i < |parts| ==> sep !in parts[i]
    ensures Join(parts, sep) == s
    decreases |s|
  {
    if sep !in s then [s]
    else
      var i := IndexOf(s, sep);
      assert s == s[..i] + [sep] + s[i + 1..];
      [s[..i]] + Split(s[i + 1..], sep)
  }

  /** Splitting is the inverse of joining pieces free of the separator. */
  lemma {:induction false} SplitJoin(parts: seq<string>, sep: char)
    requires |parts| >= 1
    requires forall i :: 0 <= i < |parts| ==> sep !in parts[i]
    ensures Split(Join(parts, sep), sep) == parts
  {
    if |parts| == 1 {
    } else {
      var s := Join(parts, sep);
      var rest := Join(parts[1..], sep);
      var k := |parts[0]|;
      assert Split(s, sep) == [parts[0]] + Split(rest, sep) by {
        assert s == parts[0] + [sep] + rest;
        assert s[k] == sep;
        var i := IndexOf(s, sep);
        assert i == k by {
          assert forall j :: 0 <= j < k ==> s[j] == parts[0][j];
        }
        assert s[..i] == parts[0];
        assert s[i + 1..] == rest;
      }
      SplitJoin(parts[1..], sep);
      assert parts == [parts[0]] + parts[1..];
    }
  }

  // ---------------------------------------------------------------------
  // trim

  /** The WhiteSpace and LineTerminator code points of ECMAScript, which
      `String.prototype.trim` removes. */
  predicate IsSpace(c: char) {
    var n := c as int;
    n == 0x09 || n == 0x0A || n == 0x0B || n == 0x0C || n == 0x0D || n == 0x20
    || n == 0xA0 || n == 0x1680 || (0x2000 <= n <= 0x200A) || n == 0x2028
    || n == 0x2029 || n == 0x202F || n == 0x205F || n == 0x3000 || n == 0xFEFF
  }

  function TrimStart(s: string): (r: string)
    ensures |r| <= |s| && r == s[|s| - |r|..]
    ensures forall k :: 0 <= k < |s| - |r| ==> IsSpace(s[k])
    ensures r == [] || !IsSpace(r[0])
  {
    if s != [] && IsSpace(s[0]) then TrimStart(s[1..]) else s
  }

  function TrimEnd(s: string): (r: string)
    ensures |r| <= |s| && r == s[..|r|]
    ensures forall k :: |r| <= k < |s| ==> IsSpace(s[k])
    ensures r == [] || !IsSpace(r[|r| - 1])
  {
    if s != [] && IsSpace(s[|s| - 1]) then TrimEnd(s[..|s| - 1]) else s
  }

  /** `s.trim()`: the longest slice of `s` that neither starts nor ends with
      white space, everything cut off being white space. */
  function Trim(s: string): (r: string)
    ensures Leading(s) + |r| <= |s| && r == s[Leading(s)..Leading(s) + |r|]
    ensures forall k :: 0 <= k < Leading(s) ==> IsSpace(s[k])
    ensures forall k :: Leading(s) + |r| <= k < |s| ==> IsSpace(s[k])
    ensures r == [] || (!IsSpace(r[0]) && !IsSpace(r[|r| - 1]))
  {
    TrimEnd(TrimStart(s))
  }

  /** Number of white-space code points `trim` cuts from the front. */
  function Leading(s: string): nat {
    |s| - |TrimStart(s)|
  }

  /** A string without surrounding white space is its own trim. */
  lemma TrimUntouched(s: string)
    requires s == [] || (!IsSpace(s[0]) && !IsSpace(s[|s| - 1]))
    ensures Trim(s) == s
  {
  }

  // ---------------------------------------------------------------------
  // toUpperCase

  /** A letter of the ASCII alphabet. */
  predicate IsAsciiLower(c: char) { 'a' <= c <= 'z' }

  /** Upper-case mapping of one code point, as `toUpperCase` applies it
      (full case mapping, so one code point may become several). ASCII
      letters map to their capitals, and the ten non-ASCII code points
      whose upper case is made of ASCII letters only (dotless i, long s,
      sharp s and the Latin ligatures U+FB00..U+FB06) map to those letters.
      Every other code point is kept: its true upper case is either itself
      or contains a non-ASCII code point, so it can never help a string
      upper-case to an ASCII word. */
  function UpperChar(c: char): string {
    var n := c as int;
    if n < 0x80 then (if IsAsciiLower(c) then [(n - 32) as char] else [c])
    else if n == 0xDF then "SS"
    else if n == 0x131 then "I"
    else if n == 0x17F then "S"
    else if n == 0xFB00 then "FF"
    else if n == 0xFB01 then "FI"
    else if n == 0xFB02 then "FL"
    else if n == 0xFB03 then "FFI"
    else if n == 0xFB04 then "FFL"
    else if n == 0xFB05 || n == 0xFB06 then "ST"
    else [c]
  }

  /** `s.toUpperCase()`. */
  function ToUpperCase(s: string): string {
    if s == [] then [] else UpperChar(s[0]) + ToUpperCase(s[1..])
  }

  /** Upper-case ASCII letter of a lower- or upper-case one. */
  function AsciiUpper(c: char): char {
    if IsAsciiLower(c) then (c as int - 32) as char else c
  }

  /** On ASCII text, upper-casing is letter-by-letter and length-preserving. */
  lemma {:induction false} ToUpperCaseAscii(s: string)
    requires forall i :: 0 <= i < |s| ==> s[i] as int < 0x80
    ensures |ToUpperCase(s)| == |s|
    ensures forall i :: 0 <= i < |s| ==> ToUpperCase(s)[i] == AsciiUpper(s[i])
  {
    if s != [] {
      ToUpperCaseAscii(s[1..]);
      assert ToUpperCase(s) == [AsciiUpper(s[0])] + ToUpperCase(s[1..]);
    }
  }

  /** Text without lower-case letters and without the special code points
      is its own upper case. */
  lemma {:induction false} ToUpperCaseFixed(s: string)
    requires forall i :: 0 <= i < |s| ==> s[i] as int < 0x80 && !IsAsciiLower(s[i])
    ensures ToUpperCase(s) == s
  {
    if s != [] {
      ToUpperCaseFixed(s[1..]);
      assert s == [s[0]] + s[1..];
    }
  }
}

=== FILE: jwt.dfy ===
/** Signed session tokens in the style of `jsonwebtoken`, without the
    cryptography: a token records the claims, its issue and expiry times in
    whole seconds and the secret it was signed with, and verification
    accepts it exactly when the secret matches and it has not expired. */
module Jwt {
  import opened Base
  import opened Js

  type Claims = map<string, Json>

  datatype Token = Token(claims: Claims, iat: int, exp: int, secret: string)

  /** `expiresIn: '2h'` in seconds. */
  const TwoHours: nat := 2 * 60 * 60
  /** `expiresIn: '7d'` in seconds. */
  const SevenDays: nat := 7 * 24 * 60 * 60

  /** `Math.floor(Date.now() / 1000)` for a clock reading in milliseconds. */
  function Seconds(nowMs: int): int {
    nowMs / 1000
  }

  /** `process.env.JWT_SECRET || fallback`. */
  function SecretOr(env: Option<string>, fallback: string): (secret: string)
    requires fallback != ""
    ensures secret != ""
    ensures env.Some? && env.value != "" ==> secret == env.value
  {
    if env.Some? && env.value != "" then env.value else fallback
  }

  /** `jwt.sign(claims, secret, { expiresIn: ttl })` at time `nowMs`. An
      empty secret makes the library throw, so callers must supply one. */
  function Sign(claims: Claims, ttl: nat, secret: string, nowMs: int): Token
    requires secret != ""
  {
    Token(claims, Seconds(nowMs), Seconds(nowMs) + ttl, secret)
  }

  /** `jwt.verify(token, secret)`: a token signed with another secret fails
      the signature check; one whose expiry second has been reached is
      expired. */
  function Verify(t: Token, secret: string, nowMs: int): (r: Result<Claims>)
    ensures r.Ok? <==> t.secret == secret && Seconds(nowMs) < t.exp
    ensures r.Ok? ==> r.value == t.claims
  {
    if t.secret != secret then Err("invalid signature")
    else if Seconds(nowMs) >= t.exp then Err("jwt expired")
    else Ok(t.claims)
  }

  /** A token verifies under its own secret, returning its claims, until
      `ttl` seconds after the second it was issued in, and never under any
      other secret. */
  lemma SignThenVerify(claims: Claims, ttl: nat, secret: string, issuedMs: int, secret': string, nowMs: int)
    requires secret != ""
    ensures Verify(Sign(claims, ttl, secret, issuedMs), secret', nowMs).Ok?
        <==> secret' == secret && Seconds(nowMs) < Seconds(issuedMs) + ttl
    ensures Verify(Sign(claims, ttl, secret, issuedMs), secret', nowMs).Ok?
        ==> Verify(Sign(claims, ttl, secret, issuedMs), secret', nowMs).value == claims
    ensures Verify(Sign(claims, ttl, secret, issuedMs), secret', nowMs)
         == if secret' != secret then Err("invalid signature")
            else if Seconds(nowMs) < Seconds(issuedMs) + ttl then Ok(claims)
            else Err("jwt expired")
  {
  }
}

=== FILE: lifecycle.dfy ===
/** The verification-token lifecycle across requests: what a login leaves
    behind for the next login and for the verification link, what a
    verification or an expiry leaves behind for a retry, and what a resend
    leaves the user owning. */
module Lifecycle {
  import opened Base
  import opened Js
  import opened Store
  import Codec
  import opened EmailService
  import Jwt
  import opened AuthController

  // ---------------------------------------------------------------------
  // table facts

  /** In a table without duplicate tokens, a row is what its token finds. */
  lemma RecordOfRow(ts: seq<VerificationToken>, x: VerificationToken)
    requires DistinctTokens(ts) && x in ts
    ensures TokenRecord(ts, x.token) == Some(x)
  {
    var i :| 0 <= i < |ts| && ts[i] == x;
    UniqueRecord(ts, i);
  }

  /** The row a user-id lookup finds in a table with distinct ids. */
  lemma UserByIdOfRow(us: seq<User>, u: User)
    requires DistinctUsers(us) && u in us
    ensures UserById(us, u.id) == Some(u)
  {
    var k :| 0 <= k < |us| && us[k] == u;
    var found := UserById(us, u.id).value;
    var j :| 0 <= j < |us| && us[j] == found;
    assert j == k;
  }

  /** In a table with distinct ids and emails, rewriting a row without
      touching its email makes the email lookup find the new row. */
  lemma UserByEmailAfterSet(us: seq<User>, x: User, x': User)
    requires DistinctUsers(us) && x in us && x'.id == x.id && x'.email == x.email
    ensures UserByEmail(SetUser(us, x'), x.email) == Some(x')
  {
    var k :| 0 <= k < |us| && us[k] == x;
    var r := SetUser(us, x');
    assert r[k] == x';
    var found := UserByEmail(r, x.email).value;
    var j :| 0 <= j < |r| && r[j] == found;
    assert j == k;
  }

  /** The link's user id parameter reads back as the user's id. */
  lemma IdParameter(id: int)
    ensures Filled(Some(Codec.IntString(id)))
    ensures Codec.ToNumber(Codec.IntString(id)) == Codec.Integer(id)
  {
    Codec.NumberOfIntString(id);
  }

  // ---------------------------------------------------------------------
  // login and the newest token

  /** A row created now, under a token string not yet taken, is its
      owner's newest when every other row was created earlier. */
  lemma NewestAfterCreate(ts: seq<VerificationToken>, t: string, userId: int, expires: int, now: int)
    requires DistinctTokens(ts) && TokenRecord(ts, t).None?
    requires forall i :: 0 <= i < |ts| ==> ts[i].createdAt < now
    ensures NewestToken(UpsertToken(ts, t, userId, expires, now), userId)
         == Some(VerificationToken(t, userId, expires, now))
  {
    var r := UpsertToken(ts, t, userId, expires, now);
    var minted := VerificationToken(t, userId, expires, now);
    assert minted in r;
    var m := NewestToken(r, userId).value;
    assert m.createdAt >= now by {
      var i :| 0 <= i < |r| && r[i] == minted;
    }
    assert m.token == t;
    RecordOfRow(r, m);
  }

  /** After the unverified branch of a login, the token the link carries is
      the user's newest row and is live: either it was already, or it was
      just created at `now` (every older row having been created before
      `now`, and the minted hex string not being taken). */
  lemma LinkIsNewest(db: Db, u: User, random: seq<Codec.Byte>, now: int)
    requires |random| == 32 && DistinctTokens(db.tokens)
    requires TokenRecord(db.tokens, Codec.HexEncode(random)).None?
    requires forall i :: 0 <= i < |db.tokens| ==> db.tokens[i].createdAt < now
    ensures var ts := LinkTable(db, u, random, now);
      var link := LinkToken(db, u, random, now);
      && TokenRecord(ts, link).Some?
      && NewestToken(ts, u.id) == TokenRecord(ts, link)
      && TokenRecord(ts, link).value.userId == u.id
      && now < TokenRecord(ts, link).value.expires
  {
    var live := LiveToken(db, u, now);
    if live.Some? {
      RecordOfRow(db.tokens, live.value);
    } else {
      NewestAfterCreate(db.tokens, Codec.HexEncode(random), u.id, now + VerificationTtl, now);
    }
  }

  /** Two logins of an unverified user: within the validity window of the
      link the first one mailed, the second mails the same link and leaves
      the store as it was (no rotation); once that link has expired, the
      second mints and mails a new token from its own random bytes. */
  lemma LoginReusesLiveToken(db: Db, req: LoginRequest, matches: (string, string) -> bool,
                             random: seq<Codec.Byte>, random': seq<Codec.Byte>,
                             outcomes: seq<Attempt>, outcomes': seq<Attempt>, env: Env, later: int)
    requires |random| == 32 && |random'| == 32 && |outcomes| >= MaxAttempts && |outcomes'| >= MaxAttempts
    requires DistinctTokens(db.tokens)
    requires TokenRecord(db.tokens, Codec.HexEncode(random)).None?
    requires forall i :: 0 <= i < |db.tokens| ==> db.tokens[i].createdAt < env.now
    requires env.now <= later
    requires Filled(req.email) && Filled(req.password) && Admitted(db, req, matches)
    requires !Verified(UserByEmail(db.users, req.email.value).value)
    ensures var r := Login(db, req, matches, random, outcomes, env);
      var u := UserByEmail(db.users, req.email.value).value;
      var link := LinkToken(db, u, random, env.now);
      var r' := Login(r.db, req, matches, random', outcomes', env.(now := later));
      && TokenRecord(r.db.tokens, link).Some?
      && (r'.response.NotVerified? || r'.response == EmailSendFailed)
      && (later < TokenRecord(r.db.tokens, link).value.expires ==>
            && r'.db == r.db
            && r'.mail == Some(VerificationMail(u.email, VerificationUrl(env.baseUrl, link, Codec.IntString(u.id)))))
      && (TokenRecord(r.db.tokens, link).value.expires <= later ==>
            r'.mail == Some(VerificationMail(u.email,
              VerificationUrl(env.baseUrl, Codec.HexEncode(random'), Codec.IntString(u.id)))))
  {
    var u := UserByEmail(db.users, req.email.value).value;
    var r := Login(db, req, matches, random, outcomes, env);
    assert r == UnverifiedLogin(db, u, random, outcomes, env);
    LinkIsNewest(db, u, random, env.now);
    var env' := env.(now := later);
    assert UserByEmail(r.db.users, req.email.value) == Some(u);
    assert Login(r.db, req, matches, random', outcomes', env') == UnverifiedLogin(r.db, u, random', outcomes', env');
  }

  /** The link the unverified branch mails names a live row of the user,
      and following it at any time up to that row's expiry verifies the
      user. */
  lemma UnverifiedLinkVerifies(db: Db, u: User, random: seq<Codec.Byte>, now: int)
    requires |random| == 32 && Wellformed(db) && u in db.users
    requires TokenRecord(db.tokens, Codec.HexEncode(random)).None?
    requires forall i :: 0 <= i < |db.tokens| ==> db.tokens[i].token != ""
    ensures var ts := LinkTable(db, u, random, now);
      var link := LinkToken(db, u, random, now);
      && TokenRecord(ts, link).Some?
      && TokenRecord(ts, link).value.userId == u.id
      && now < TokenRecord(ts, link).value.expires
      && forall e: Env :: e.now <= TokenRecord(ts, link).value.expires ==>
           VerifyEmail(db.(tokens := ts), Some(link), Some(Codec.IntString(u.id)), e).response.EmailVerified?
  {
    var ts := LinkTable(db, u, random, now);
    var link := LinkToken(db, u, random, now);
    var live := LiveToken(db, u, now);
    if live.Some? {
      RecordOfRow(db.tokens, live.value);
      assert link != "" by {
        var i :| 0 <= i < |db.tokens| && db.tokens[i] == live.value;
      }
    } else {
      assert |link| == 64;
    }
    var rec := TokenRecord(ts, link).value;
    assert HasUser(db.users, u.id) by {
      var i :| 0 <= i < |db.users| && db.users[i] == u;
    }
    forall e: Env | e.now <= rec.expires
      ensures VerifyEmail(db.(tokens := ts), Some(link), Some(Codec.IntString(u.id)), e).response.EmailVerified?
    {
      FollowLink(db.(tokens := ts), rec, e);
    }
  }

  /** Following the link of a stored row whose owner exists, no later than
      the row's expiry, verifies the owner. */
  lemma FollowLink(db: Db, rec: VerificationToken, e: Env)
    requires TokenRecord(db.tokens, rec.token) == Some(rec) && rec.token != ""
    requires HasUser(db.users, rec.userId) && e.now <= rec.expires
    ensures VerifyEmail(db, Some(rec.token), Some(Codec.IntString(rec.userId)), e).response.EmailVerified?
  {
    IdParameter(rec.userId);
    assert Matching(db, rec.token, Codec.IntString(rec.userId)) == Some(rec);
  }

  /** The link an unverified login mails verifies the user: its token names
      a row of that user, live at the time of the login, and following the
      link at any time up to the row's expiry succeeds. */
  lemma LoginLinkVerifies(db: Db, req: LoginRequest, matches: (string, string) -> bool,
                          random: seq<Codec.Byte>, outcomes: seq<Attempt>, env: Env)
    requires |random| == 32 && |outcomes| >= MaxAttempts && Wellformed(db)
    requires TokenRecord(db.tokens, Codec.HexEncode(random)).None?
    requires forall i :: 0 <= i < |db.tokens| ==> db.tokens[i].token != ""
    requires Filled(req.email) && Filled(req.password) && Admitted(db, req, matches)
    requires !Verified(UserByEmail(db.users, req.email.value).value)
    ensures var r := Login(db, req, matches, random, outcomes, env);
      var u := UserByEmail(db.users, req.email.value).value;
      var link := LinkToken(db, u, random, env.now);
      && r.mail == Some(VerificationMail(u.email, VerificationUrl(env.baseUrl, link, Codec.IntString(u.id))))
      && TokenRecord(r.db.tokens, link).Some?
      && TokenRecord(r.db.tokens, link).value.userId == u.id
      && env.now < TokenRecord(r.db.tokens, link).value.expires
      && forall e: Env :: e.now <= TokenRecord(r.db.tokens, link).value.expires ==>
           VerifyEmail(r.db, Some(link), Some(Codec.IntString(u.id)), e).response.EmailVerified?
  {
    var u := UserByEmail(db.users, req.email.value).value;
    assert Login(db, req, matches, random, outcomes, env) == UnverifiedLogin(db, u, random, outcomes, env);
    UnverifiedLinkVerifies(db, u, random, env.now);
  }

  /** At the instant a user's newest token expires, login and verification
      disagree: login no longer counts it as live and would mint another,
      while following its link still verifies the user. */
  lemma ExpiryInstant(db: Db, u: User, env: Env)
    requires Wellformed(db) && u in db.users
    requires NewestToken(db.tokens, u.id).Some?
    requires NewestToken(db.tokens, u.id).value.expires == env.now
    requires NewestToken(db.tokens, u.id).value.token != ""
    ensures LiveToken(db, u, env.now).None?
    ensures VerifyEmail(db, Some(NewestToken(db.tokens, u.id).value.token), Some(Codec.IntString(u.id)), env)
              .response.EmailVerified?
  {
    var rec := NewestToken(db.tokens, u.id).value;
    RecordOfRow(db.tokens, rec);
    assert HasUser(db.users, u.id) by {
      var i :| 0 <= i < |db.users| && db.users[i] == u;
    }
    FollowLink(db, rec, env);
  }

  // ---------------------------------------------------------------------
  // consuming a token

  /** A token that verified once is gone: the same link then fails as an
      unknown token, at any later time. */
  lemma VerifyTwice(db: Db, token: Option<string>, userId: Option<string>, env: Env, env': Env)
    requires VerifyEmail(db, token, userId, env).response.EmailVerified?
    ensures VerifyEmail(VerifyEmail(db, token, userId, env).db, token, userId, env').response
         == InvalidVerificationToken
  {
    var r := VerifyEmail(db, token, userId, env);
    assert TokenRecord(r.db.tokens, token.value).None?;
  }

  /** An expired token is deleted by the failed attempt, so an immediate
      retry fails as an unknown token. */
  lemma ExpiredThenInvalid(db: Db, token: Option<string>, userId: Option<string>, env: Env, env': Env)
    requires VerifyEmail(db, token, userId, env).response == VerificationExpired
    ensures VerifyEmail(VerifyEmail(db, token, userId, env).db, token, userId, env').response
         == InvalidVerificationToken
  {
    var r := VerifyEmail(db, token, userId, env);
    assert TokenRecord(r.db.tokens, token.value).None?;
  }

  /** After a successful verification the same credentials log in: the
      owner is now verified, and nothing the login checks before that has
      changed. */
  lemma VerifiedUserLogsIn(db: Db, token: string, userId: string, e: Env,
                           req: LoginRequest, matches: (string, string) -> bool,
                           random: seq<Codec.Byte>, outcomes: seq<Attempt>, env: Env)
    requires Wellformed(db) && |random| == 32 && |outcomes| >= MaxAttempts
    requires token != "" && userId != ""
    requires Matching(db, token, userId).Some? && e.now <= Matching(db, token, userId).value.expires
    requires Filled(req.email) && Filled(req.password) && Admitted(db, req, matches)
    requires Matching(db, token, userId).value.userId == UserByEmail(db.users, req.email.value).value.id
    ensures VerifyEmail(db, Some(token), Some(userId), e).response.EmailVerified?
    ensures DistinctTokens(VerifyEmail(db, Some(token), Some(userId), e).db.tokens)
    ensures Login(VerifyEmail(db, Some(token), Some(userId), e).db, req, matches, random, outcomes, env).response.LoggedIn?
  {
    var v := VerifyEmail(db, Some(token), Some(userId), e);
    var owner := v.response.user;
    var u := UserByEmail(db.users, req.email.value).value;
    assert owner == u by {
      UserByIdOfRow(db.users, u);
    }
    UserByEmailAfterSet(db.users, u, u.(isVerified := Some(true)));
  }

  // ---------------------------------------------------------------------
  // resend and forgot-password

  /** A row appended after rows of other users only is all that user
      owns. */
  lemma {:induction false} OnlyRow(ts: seq<VerificationToken>, n: VerificationToken)
    requires forall i :: 0 <= i < |ts| ==> ts[i].userId != n.userId
    ensures TokensOf(ts + [n], n.userId) == [n]
  {
    if ts != [] {
      assert (ts + [n])[1..] == ts[1..] + [n];
      OnlyRow(ts[1..], n);
    }
  }

  /** Once a resend has created its token (whether or not the mail then
      went out), the user owns exactly one token: the new one, expiring 24
      hours from now. */
  lemma ResendLeavesOneToken(db: Db, email: string, random: seq<Codec.Byte>, outcomes: seq<Attempt>, env: Env)
    requires |random| == 32 && |outcomes| >= MaxAttempts
    requires UserByEmail(db.users, email).Some? && !Verified(UserByEmail(db.users, email).value)
    requires TokenRecord(DeleteUserTokens(db.tokens, UserByEmail(db.users, email).value.id), Codec.HexEncode(random)).None?
    ensures Resend(db, email, random, outcomes, env).mail.Some?
    ensures var u := UserByEmail(db.users, email).value;
      TokensOf(Resend(db, email, random, outcomes, env).db.tokens, u.id)
        == [VerificationToken(Codec.HexEncode(random), u.id, env.now + VerificationTtl, env.now)]
  {
    var u := UserByEmail(db.users, email).value;
    var cleared := DeleteUserTokens(db.tokens, u.id);
    var n := VerificationToken(Codec.HexEncode(random), u.id, env.now + VerificationTtl, env.now);
    assert ResentTable(db.tokens, u.id, Codec.HexEncode(random), env.now) == cleared + [n];
    assert forall i :: 0 <= i < |cleared| ==> cleared[i] in cleared;
    OnlyRow(cleared, n);
  }

  /** Two reset requests for the same account: the second's token replaces
      the first as the user's one reset row, expiring an hour after the
      second request; every other user's row is as before both. */
  lemma ForgotTwiceSupersedes(db: Db, email: string, compact: Jwt.Token -> string,
                              a1: Attempt, a2: Attempt, env1: Env, env2: Env)
    requires UserByEmail(db.users, email).Some?
    ensures var u := UserByEmail(db.users, email).value;
      var r2 := ForgotPassword(ForgotPassword(db, email, compact, a1, env1).db, email, compact, a2, env2);
      && r2.db.resets.Keys == db.resets.Keys + {u.id}
      && r2.db.resets[u.id] == ResetToken(compact(ResetClaims(u, env2)), u.id, env2.now + ResetTtl)
      && (forall k :: k in db.resets && k != u.id ==> r2.db.resets[k] == db.resets[k])
      && r2.db.users == db.users && r2.db.tokens == db.tokens
  {
    var r1 := ForgotPassword(db, email, compact, a1, env1);
    assert UserByEmail(r1.db.users, email) == UserByEmail(db.users, email);
  }
}

=== FILE: scenarios.dfy ===
/** Concrete runs of the handlers: the documented signup, login and expiry
    scenarios, and the role spellings that the two-stage role check treats
    differently. */
module Scenarios {
  import opened Base
  import opened Js
  import opened Store
  import Codec
  import Jwt
  import opened EmailService
  import opened AuthController

  function ScenarioSignup(userType: string): SignupRequest {
    SignupRequest(None, None, "a@x.com", "secret123", "secret123", userType, None, "a", None)
  }

  /** Signing up a@x.com / a as STAFF on a store without either creates an
      unverified user and issues a token whose claims carry that email, the
      role and `isVerified: false`. */
  lemma SignupScenario(db: Db, hash: string, env: Env)
    requires forall i :: 0 <= i < |db.users| ==> db.users[i].email != "a@x.com" && db.users[i].username != "a"
    requires db.defaults.isVerified != Some(true)
    ensures var r := Signup(db, ScenarioSignup("STAFF"), hash, env);
      && r.response.Created?
      && !Verified(r.response.user)
      && r.response.user.email == "a@x.com" && r.response.user.userType == STAFF
      && r.response.token.claims["email"] == JStr("a@x.com")
      && r.response.token.claims["userType"] == JStr("STAFF")
      && r.response.token.claims["isVerified"] == JBool(false)
  {
    RoleNamesUpper();
  }

  /** A wrong password for an active account is refused with the generic
      credentials error; nothing is stored and nothing is mailed. */
  lemma WrongPasswordScenario(db: Db, matches: (string, string) -> bool, random: seq<Codec.Byte>,
                              outcomes: seq<Attempt>, env: Env)
    requires |random| == 32 && |outcomes| >= MaxAttempts && DistinctTokens(db.tokens)
    requires UserByEmail(db.users, "a@x.com").Some? && UserByEmail(db.users, "a@x.com").value.isActive
    requires !matches(UserByEmail(db.users, "a@x.com").value.passwordHash, "wrong")
    ensures var r := Login(db, LoginRequest(Some("a@x.com"), Some("wrong"), None), matches, random, outcomes, env);
      r.response == InvalidCredentials && r.db == db && r.mail.None? && r.response.Status() == 401
  {
  }

  /** A deactivated account never gets a session, whatever the password. */
  lemma InactiveScenario(db: Db, req: LoginRequest, matches: (string, string) -> bool, random: seq<Codec.Byte>,
                         outcomes: seq<Attempt>, env: Env)
    requires |random| == 32 && |outcomes| >= MaxAttempts && DistinctTokens(db.tokens)
    requires Filled(req.email) && Filled(req.password)
    requires UserByEmail(db.users, req.email.value).Some? && !UserByEmail(db.users, req.email.value).value.isActive
    ensures var r := Login(db, req, matches, random, outcomes, env);
      r.response == Deactivated && r.response.Status() == 403 && r.db == db && r.mail.None?
  {
  }

  /** A link whose token expired one second ago fails as expired, and the
      immediate retry fails as an unknown token. */
  lemma ExpiredOneSecondAgo(db: Db, rec: VerificationToken, env: Env)
    requires DistinctTokens(db.tokens) && rec in db.tokens && rec.token != ""
    requires rec.expires == env.now - 1000
    ensures var first := VerifyEmail(db, Some(rec.token), Some(Codec.IntString(rec.userId)), env);
      && first.response == VerificationExpired
      && VerifyEmail(first.db, Some(rec.token), Some(Codec.IntString(rec.userId)), env).response
           == InvalidVerificationToken
  {
    var i :| 0 <= i < |db.tokens| && db.tokens[i] == rec;
    UniqueRecord(db.tokens, i);
    Codec.NumberOfIntString(rec.userId);
    assert Matching(db, rec.token, Codec.IntString(rec.userId)) == Some(rec);
  }

  /** The role check in two stages: "staff" is upper-cased into a role by
      `mapUserType` but is not itself a role name, so signup answers 400;
      "ſtaff" (long s) upper-cases to STAFF just the same; "guest" makes
      `mapUserType` throw, which signup reports as a 500. */
  lemma RoleSpellings(db: Db, hash: string, env: Env)
    ensures MapUserType("staff") == Ok("STAFF")
    ensures Signup(db, ScenarioSignup("staff"), hash, env).response == InvalidUserType("staff")
    ensures MapUserType("ſtaff") == Ok("STAFF")
    ensures Signup(db, ScenarioSignup("ſtaff"), hash, env).response == InvalidUserType("ſtaff")
    ensures MapUserType("guest").Err?
    ensures Signup(db, ScenarioSignup("guest"), hash, env).response == ServerError
    ensures Signup(db, ScenarioSignup("guest"), hash, env).response.Status() == 500
  {
    assert ToUpperCase("staff") == "STAFF";
    assert ToUpperCase("ſtaff") == "STAFF";
    assert ToUpperCase("guest") == "GUEST";
  }
}

=== FILE: store.dfy ===
/** The credential store as an immutable value: the `user` table, the
    `verificationToken` table (unique on the token string) and the
    `passwordResetToken` table (unique on the user id), with the lookups,
    upserts and deletions the authentication code issues against them. */
module Store {
  import opened Base

  datatype Role = ADMIN | HEAD | STAFF

  /** The enum value's name as stored and as put in token claims. */
  function RoleName(r: Role): string {
    match r
    case ADMIN => "ADMIN"
    case HEAD => "HEAD"
    case STAFF => "STAFF"
  }

  /** The role whose name is exactly `s`, if any. */
  function RoleOf(s: string): (r: Option<Role>)
    ensures r.Some? <==> s == "ADMIN" || s == "HEAD" || s == "STAFF"
    ensures r.Some? ==> RoleName(r.value) == s
  {
    if s == "ADMIN" then Some(ADMIN)
    else if s == "HEAD" then Some(HEAD)
    else if s == "STAFF" then Some(STAFF)
    else None
  }

  /** A row of the user table. `isVerified` is a nullable column. */
  datatype User = User(
    id: int,
    email: string,
    username: string,
    passwordHash: string,
    firstName: Option<string>,
    lastName: Option<string>,
    phoneNumber: Option<string>,
    userType: Role,
    department: Option<string>,
    isActive: bool,
    isVerified: Option<bool>,
    lastLogin: Option<int>)

  /** `user.is_verified` read as a JavaScript condition: null is false. */
  predicate Verified(u: User) {
    u.isVerified == Some(true)
  }

  /** A row of the verification-token table; times are milliseconds. */
  datatype VerificationToken = VerificationToken(token: string, userId: int, expires: int, createdAt: int)

  /** A row of the password-reset table. */
  datatype ResetToken = ResetToken(token: string, userId: int, expiresAt: int)

  /** Values the database fills in for columns a `create` leaves out. */
  datatype Defaults = Defaults(isActive: bool, isVerified: Option<bool>)

  datatype Db = Db(
    users: seq<User>,
    tokens: seq<VerificationToken>,
    resets: map<int, ResetToken>,
    nextUserId: int,
    defaults: Defaults)

  /** 24 hours in milliseconds: the lifetime of a verification token. */
  const VerificationTtl: int := 24 * 60 * 60 * 1000
  /** 1 hour in milliseconds: the lifetime of a password-reset token. */
  const ResetTtl: int := 60 * 60 * 1000

  // ---------------------------------------------------------------------
  // integrity of the tables

  predicate HasUser(us: seq<User>, id: int) {
    exists i :: 0 <= i < |us| && us[i].id == id
  }

  predicate DistinctUsers(us: seq<User>) {
    forall i, j :: 0 <= i < j < |us| ==>
      us[i].id != us[j].id && us[i].email != us[j].email && us[i].username != us[j].username
  }

  predicate DistinctTokens(ts: seq<VerificationToken>) {
    forall i, j :: 0 <= i < j < |ts| ==> ts[i].token != ts[j].token
  }

  predicate OwnedTokens(ts: seq<VerificationToken>, us: seq<User>) {
    forall i :: 0 <= i < |ts| ==> HasUser(us, ts[i].userId)
  }

  /** The unique and foreign-key constraints of the schema, and the
      auto-increment counter lying above every id. */
  predicate Wellformed(db: Db) {
    && DistinctUsers(db.users)
    && 0 < db.nextUserId
    && (forall i :: 0 <= i < |db.users| ==> 0 < db.users[i].id < db.nextUserId)
    && DistinctTokens(db.tokens)
    && OwnedTokens(db.tokens, db.users)
    && (forall k :: k in db.resets ==> db.resets[k].userId == k && HasUser(db.users, k))
  }

  // ---------------------------------------------------------------------
  // user table

  /** `findUnique({ where: { email } })`. */
  function UserByEmail(us: seq<User>, email: string): (r: Option<User>)
    ensures r.None? <==> forall i :: 0 <= i < |us| ==> us[i].email != email
    ensures r.Some? ==> r.value in us && r.value.email == email
  {
    if us == [] then None
    else if us[0].email == email then Some(us[0])
    else UserByEmail(us[1..], email)
  }

  /** `findUnique({ where: { id } })`. */
  function UserById(us: seq<User>, id: int): (r: Option<User>)
    ensures r.None? <==> !HasUser(us, id)
    ensures r.Some? ==> r.value in us && r.value.id == id
  {
    if us == [] then None
    else if us[0].id == id then Some(us[0])
    else
      assert forall i :: 1 <= i < |us| ==> us[1..][i - 1] == us[i];
      UserById(us[1..], id)
  }

  /** `findFirst({ where: { OR: [{ email }, { username }] } })`. */
  function UserByEmailOrUsername(us: seq<User>, email: string, username: string): (r: Option<User>)
    ensures r.None? <==> forall i :: 0 <= i < |us| ==> us[i].email != email && us[i].username != username
    ensures r.Some? ==> r.value in us && (r.value.email == email || r.value.username == username)
  {
    if us == [] then None
    else if us[0].email == email || us[0].username == username then Some(us[0])
    else UserByEmailOrUsername(us[1..], email, username)
  }

  /** `update({ where: { id: u.id }, data })`: the row with `u`'s id becomes
      `u`; every other row is kept. */
  function SetUser(us: seq<User>, u: User): (r: seq<User>)
    ensures |r| == |us|
    ensures forall i :: 0 <= i < |us| ==> r[i] == if us[i].id == u.id then u else us[i]
  {
    seq(|us|, i requires 0 <= i < |us| => if us[i].id == u.id then u else us[i])
  }

  /** In a table with distinct ids, writing back a row unchanged is no
      change at all. */
  lemma SetUserSame(us: seq<User>, u: User)
    requires DistinctUsers(us) && u in us
    ensures SetUser(us, u) == us
  {
    var k :| 0 <= k < |us| && us[k] == u;
    forall i | 0 <= i < |us| ensures SetUser(us, u)[i] == us[i] {
      if us[i].id == u.id {
        assert i == k;
      }
    }
  }

  /** Rewriting a row with its own id, email and username keeps the table
      free of duplicates and keeps every id present. */
  lemma SetUserKeepsKeys(us: seq<User>, u: User, old_: User)
    requires DistinctUsers(us) && old_ in us && old_.id == u.id
    requires u.email == old_.email && u.username == old_.username
    ensures DistinctUsers(SetUser(us, u))
    ensures forall id :: HasUser(SetUser(us, u), id) <==> HasUser(us, id)
    ensures forall i :: 0 <= i < |us| ==> SetUser(us, u)[i].id == us[i].id
  {
    var r := SetUser(us, u);
    forall id | HasUser(us, id) ensures HasUser(r, id) {
      var i :| 0 <= i < |us| && us[i].id == id;
      assert r[i].id == id;
    }
  }

  // ---------------------------------------------------------------------
  // verification-token table

  /** `findUnique({ where: { token } })`. */
  function TokenRecord(ts: seq<VerificationToken>, t: string): (r: Option<VerificationToken>)
    ensures r.None? <==> forall i :: 0 <= i < |ts| ==> ts[i].token != t
    ensures r.Some? ==> r.value in ts && r.value.token == t
  {
    if ts == [] then None
    else if ts[0].token == t then Some(ts[0])
    else TokenRecord(ts[1..], t)
  }

  /** The rows satisfying `keep`, in table order. */
  function Keep(ts: seq<VerificationToken>, keep: VerificationToken -> bool): (r: seq<VerificationToken>)
    ensures forall x :: x in r <==> x in ts && keep(x)
    ensures |r| <= |ts|
    ensures DistinctTokens(ts) ==> DistinctTokens(r)
  {
    if ts == [] then []
    else
      var rest := Keep(ts[1..], keep);
      if keep(ts[0]) then
        assert DistinctTokens(ts) ==> forall x :: x in rest ==> x.token != ts[0].token by {
          if DistinctTokens(ts) {
            forall x | x in rest ensures x.token != ts[0].token {
              var j :| 0 <= j < |ts[1..]| && ts[1..][j] == x;
              assert ts[j + 1] == x;
            }
          }
        }
        [ts[0]] + rest
      else rest
  }

  /** `delete({ where: { token } })` on a unique token. */
  function DeleteToken(ts: seq<VerificationToken>, t: string): (r: seq<VerificationToken>)
    ensures forall x :: x in r <==> x in ts && x.token != t
    ensures DistinctTokens(ts) ==> DistinctTokens(r)
    ensures TokenRecord(r, t).None?
  {
    Keep(ts, (x: VerificationToken) => x.token != t)
  }

  /** `deleteMany({ where: { user_id } })`. */
  function DeleteUserTokens(ts: seq<VerificationToken>, userId: int): (r: seq<VerificationToken>)
    ensures forall x :: x in r <==> x in ts && x.userId != userId
    ensures DistinctTokens(ts) ==> DistinctTokens(r)
  {
    Keep(ts, (x: VerificationToken) => x.userId != userId)
  }

  /** `upsert({ where: { token }, update: { token, expires },
      create: { user_id, token, expires } })` at time `now`: an existing row
      keeps its owner and creation time and takes the new expiry; otherwise
      a row owned by `userId` is appended. */
  function UpsertToken(ts: seq<VerificationToken>, t: string, userId: int, expires: int, now: int)
    : (r: seq<VerificationToken>)
    requires DistinctTokens(ts)
    ensures DistinctTokens(r)
    ensures TokenRecord(r, t).Some? && TokenRecord(r, t).value.expires == expires
    ensures TokenRecord(r, t).value.userId
         == if TokenRecord(ts, t).Some? then TokenRecord(ts, t).value.userId else userId
    ensures TokenRecord(ts, t).Some? ==> TokenRecord(r, t) == Some(TokenRecord(ts, t).value.(expires := expires))
    ensures TokenRecord(ts, t).None? ==> TokenRecord(r, t) == Some(VerificationToken(t, userId, expires, now))
    ensures forall x :: x in r && x.token != t <==> x in ts && x.token != t
  {
    match TokenRecord(ts, t)
    case Some(_) =>
      var i := TokenIndex(ts, t);
      var r := ts[i := ts[i].(expires := expires)];
      assert r[i].token == t;
      forall x: VerificationToken | x.token != t ensures x in r <==> x in ts {
        if x in r { var j :| 0 <= j < |r| && r[j] == x; assert ts[j] == x; }
        if x in ts { var j :| 0 <= j < |ts| && ts[j] == x; assert r[j] == x; }
      }
      UniqueRecord(r, i);
      r
    case None =>
      var r := ts + [VerificationToken(t, userId, expires, now)];
      UniqueRecord(r, |ts|);
      r
  }

  function TokenIndex(ts: seq<VerificationToken>, t: string): (i: nat)
    requires TokenRecord(ts, t).Some?
    ensures i < |ts| && ts[i] == TokenRecord(ts, t).value
  {
    if ts[0].token == t then 0 else 1 + TokenIndex(ts[1..], t)
  }

  /** In a table without duplicate tokens, the lookup finds the one row
      carrying the token. */
  lemma UniqueRecord(ts: seq<VerificationToken>, i: nat)
    requires DistinctTokens(ts) && i < |ts|
    ensures TokenRecord(ts, ts[i].token) == Some(ts[i])
  {
    var x := TokenRecord(ts, ts[i].token).value;
    var j :| 0 <= j < |ts| && ts[j] == x;
    assert j == i;
  }

  /** `create({ data: { token, user_id, expires } })` at time `now`: refused
      when the token string is taken or the owner does not exist. */
  function CreateToken(db: Db, t: string, userId: int, expires: int, now: int): (r: Result<Db>)
    ensures r.Ok? <==> TokenRecord(db.tokens, t).None? && HasUser(db.users, userId)
    ensures r.Ok? ==> r.value == db.(tokens := db.tokens + [VerificationToken(t, userId, expires, now)])
  {
    if TokenRecord(db.tokens, t).Some? then Err("Unique constraint failed on the fields: (`token`)")
    else if !HasUser(db.users, userId) then Err("Foreign key constraint failed on the field: `user_id`")
    else Ok(db.(tokens := db.tokens + [VerificationToken(t, userId, expires, now)]))
  }

  /** The verification tokens of one user, in table order. */
  function TokensOf(ts: seq<VerificationToken>, userId: int): (r: seq<VerificationToken>)
    ensures forall x :: x in r <==> x in ts && x.userId == userId
    ensures DistinctTokens(ts) ==> DistinctTokens(r)
  {
    Keep(ts, (x: VerificationToken) => x.userId == userId)
  }

  /** `verificationTokens: { orderBy: { createdAt: 'desc' }, take: 1 }`: a
      token of the user with the latest creation time; among equals the
      first in table order. */
  function NewestToken(ts: seq<VerificationToken>, userId: int): (r: Option<VerificationToken>)
    ensures r.None? <==> forall i :: 0 <= i < |ts| ==> ts[i].userId != userId
    ensures r.Some? ==> r.value in ts && r.value.userId == userId
    ensures r.Some? ==> forall i :: 0 <= i < |ts| && ts[i].userId == userId ==> ts[i].createdAt <= r.value.createdAt
  {
    if ts == [] then None
    else
      var rest := NewestToken(ts[1..], userId);
      assert forall i :: 1 <= i < |ts| ==> ts[1..][i - 1] == ts[i];
      if ts[0].userId != userId then rest
      else if rest.Some? && rest.value.createdAt > ts[0].createdAt then rest
      else Some(ts[0])
  }

  // ---------------------------------------------------------------------
  // password-reset table

  /** `passwordResetToken.upsert({ where: { user_id } , ... })`: the user's
      one row is replaced or created; rows of other users are untouched. */
  function UpsertReset(resets: map<int, ResetToken>, userId: int, t: string, expiresAt: int)
    : (r: map<int, ResetToken>)
    ensures r.Keys == resets.Keys + {userId}
    ensures r[userId] == ResetToken(t, userId, expiresAt)
    ensures forall k :: k in resets && k != userId ==> r[k] == resets[k]
  {
    resets[userId := ResetToken(t, userId, expiresAt)]
  }
}
